=== FILE: README.md ===
# Dynamic member search with QueryDSL: a Dafny model

This project models the dynamic search of `MemberRepositoryImpl` in a Spring Data JPA and QueryDSL study project. It also models the dynamic-query helpers and query scenarios of its `MemberTest` suite.

A member has an id, a nullable username, an age and a nullable team. A team has an id and a name. A caller passes a sparse `MemberSearchCondition` with four optional fields:

- `username`
- `teamName`
- `ageGoe` (age lower bound)
- `ageLoe` (age upper bound)

How the search works:

- Each field becomes an optional clause.
- A string field yields a clause only when it "has text" (Spring's `StringUtils.hasText`).
- An age bound yields a clause whenever it is non-null.
- QueryDSL's `where(..)` drops the null clauses and ANDs the rest.
- Members are left-joined to their team.
- Each row is projected into a flat `MemberTeamDto`.
- `search` returns the whole list.
- `searchPageSimple` and `searchPageComplex` slice that list by the page request and add a count of the matching members.

QueryDSL, JPA and Spring Data are restated over an in-memory table, which is a `seq<Member>`:

- `fetch()` is `Queries.Select`
- `fetchCount()` is `Queries.Count`
- `offset/limit` is `Queries.Slice`
- `fetchResults()` is `Queries.FetchResults`
- `orderBy` is `Ordering.OrderBy`
- `new PageImpl(..)` is `MemberRepository.PageImpl`
- `PageableExecutionUtils.getPage` is `MemberRepository.GetPage`

Java `null` is `Wrappers.Option.None`. A thrown exception is `Wrappers.Result.Failure`.

Modules:

- `Wrappers`: `Option` and `Result`.
- `Entities`: `Team`, `Member`, `MemberSearchCondition`, `MemberTeamDto`, `Pageable` and `Page`.
- `Predicates`: clauses, their conjunction, the null-dropping `where` fold and `hasText`.
- `Queries`: what QueryDSL's fetch operations, inner join and aggregates mean over rows.
- `Ordering`: order specifiers, their comparison and a sort.
- `MemberRepository`, `MemberRepositoryProperties` and `MemberRepositoryScenarios`: the repository, its properties, and its searches over the test rows.
- `MemberFixture`: the rows `before()` persists.
- `MemberTestQueries`: the helpers and scenarios of `MemberTest`. This includes the `BooleanBuilder` class and the `MemberTable` class, whose bulk statements rewrite rows in place.

Three details of the code shape the model:

- The count query of `getTotal` has its join commented out. The model reads the team-name clause on the member's own team.
- This code validates no page size. The model accepts a page size of 0 and returns empty content.
- `PageImpl` may replace the total by `offset + content.size()` on a last page. The model includes this replacement and proves that it never changes the total for the content these queries produce (`MemberRepository.PagingKeepsTotal`).

## Model

| member | source | states |
|---|---|---|
| `Predicates.ContainsTextSpec` | src/main/java/study/querydsl/repository/MemberRepositoryImpl.java:202 | the scan behind `hasText` is true exactly when some character of the string is not whitespace |
| `Predicates.HasText` | src/main/java/study/querydsl/repository/MemberRepositoryImpl.java:201-207 | `hasText(s)` holds exactly when `s` is non-null and has a non-whitespace character |
| `Predicates.AndWhere` | src/main/java/study/querydsl/repository/MemberRepositoryImpl.java:43-48 | adding a clause to a where: a null side is dropped; the result is absent only when both are; it is true exactly when both present sides are |
| `Predicates.AndMaybe` | src/test/java/study/querydsl/entity/MemberTest.java:692 | `left.and(right)` with a null right side is true exactly when the left side is; otherwise it is the conjunction of the two |
| `Predicates.WhereAllHolds` | src/main/java/study/querydsl/repository/MemberRepositoryImpl.java:43-48 | `where(p1..pn)` is true of a row exactly when every non-null argument is true of it |
| `Predicates.WhereAll` | src/main/java/study/querydsl/repository/MemberRepositoryImpl.java:43-48 | `where(p1..pn)` applies no filter exactly when every argument is null |
| `Queries.Select` | src/main/java/study/querydsl/repository/MemberRepositoryImpl.java:41-56 | a row is in the result exactly when it is in the table and satisfies the where; the result is never longer than the table |
| `Queries.Count` | src/main/java/study/querydsl/repository/MemberRepositoryImpl.java:166 | `fetchCount()` never exceeds the number of rows |
| `Queries.CountZero` | src/main/java/study/querydsl/repository/MemberRepositoryImpl.java:166 | `fetchCount()` is 0 exactly when no row satisfies the where |
| `Queries.CountIsSelectLength` | src/main/java/study/querydsl/repository/MemberRepositoryImpl.java:155-168 | `fetchCount()` under a where equals the length of the fetched rows under the same where |
| `Queries.SelectKeepsMatches` | src/main/java/study/querydsl/repository/MemberRepositoryImpl.java:41-56 | filtering drops nothing that matches: each matching row keeps its multiplicity, and a non-matching row occurs zero times |
| `Queries.SelectEverything` | src/main/java/study/querydsl/repository/MemberRepositoryImpl.java:41-56 | when every row satisfies the where, the result is the whole table in order |
| `Queries.SelectCongruent` | src/test/java/study/querydsl/entity/MemberTest.java:421-428 | two wheres that agree on every row fetch the same rows |
| `Queries.SelectWithoutWhere` | src/test/java/study/querydsl/entity/MemberTest.java:660-663 | an empty where fetches the whole table |
| `Queries.Slice` | src/main/java/study/querydsl/repository/MemberRepositoryImpl.java:187-188 | `offset(o).limit(n)` yields at most `n` rows. There are `min(n, size - o)` of them, or none when `o` is past the end. The i-th is row `o + i` |
| `Queries.FetchResults` | src/test/java/study/querydsl/entity/MemberTest.java:187-192 | `fetchResults()` returns the sliced rows and the unsliced match count. When something matches, it echoes the limit and the offset. When nothing matches, it is the library's empty result: no rows, limit `Long.MAX_VALUE`, offset 0 |
| `Queries.InnerJoinTeam` | src/test/java/study/querydsl/entity/MemberTest.java:250-252 | a member is in the inner join on `member.team` exactly when it is in the table and has a team |
| `Queries.InnerJoinKeepsTeamed` | src/test/java/study/querydsl/entity/MemberTest.java:250-252 | the inner join keeps each member with a team as often as the table holds it, and no teamless member |
| `Queries.InnerJoinUnderTeamName` | src/test/java/study/querydsl/entity/MemberTest.java:250-256 | under a team-name filter, the inner join and the outer join fetch the same rows |
| `Queries.Ages` | src/test/java/study/querydsl/entity/MemberTest.java:424 | `select(member.age)` yields each row's age, in row order |
| `Queries.SumAge` | src/test/java/study/querydsl/entity/MemberTest.java:205 | `age.sum()` is null exactly over an empty table; otherwise it is the sum of the ages |
| `Queries.SumAgeSnoc` | src/test/java/study/querydsl/entity/MemberTest.java:205 | adding a row adds its age to `age.sum()`; over one row the sum is that row's age |
| `Queries.SumAppend` | src/test/java/study/querydsl/entity/MemberTest.java:205 | the sum of ages splits over concatenation, so each further row adds exactly its age |
| `Queries.MaxAge` | src/test/java/study/querydsl/entity/MemberTest.java:207 | `age.max()` is null exactly over an empty table; otherwise it is one of the ages and no age exceeds it |
| `Queries.MinAge` | src/test/java/study/querydsl/entity/MemberTest.java:208 | `age.min()` is null exactly over an empty table; otherwise it is one of the ages and no age is below it |
| `Ordering.CompareFlip` | src/test/java/study/querydsl/entity/MemberTest.java:161 | swapping two rows negates their comparison under any list of order specifiers |
| `Ordering.CompareTrans` | src/test/java/study/querydsl/entity/MemberTest.java:161 | the comparison is transitive, so the specifiers form a total preorder |
| `Ordering.CompareStrings` | src/test/java/study/querydsl/entity/MemberTest.java:161 | usernames compare by code point: they tie exactly when equal, and a proper prefix comes first |
| `Ordering.CompareBy` | src/test/java/study/querydsl/entity/MemberTest.java:161 | `age.desc()` puts the older row first and ties exactly on equal ages. The username specifiers tie exactly on equal usernames and put a named row before a null-named one. `asc()` orders named rows by ascending username and `desc()` by descending username |
| `Ordering.Compare` | src/test/java/study/querydsl/entity/MemberTest.java:161 | the specifiers in turn tie two rows exactly when every one of them ties them |
| `Ordering.Insert` | src/test/java/study/querydsl/entity/MemberTest.java:161 | inserting a row lengthens the sequence by one |
| `Ordering.OrderBy` | src/test/java/study/querydsl/entity/MemberTest.java:159-162 | `orderBy(..)` returns as many rows as it is given; `Ordering.OrderBySorted` proves them a sorted permutation |
| `Ordering.InsertPermutes` | src/test/java/study/querydsl/entity/MemberTest.java:159-162 | inserting a row adds exactly one copy of it and keeps every other row |
| `Ordering.InsertSorted` | src/test/java/study/querydsl/entity/MemberTest.java:159-162 | inserting a row into a sorted sequence keeps it sorted |
| `Ordering.OrderBySorted` | src/test/java/study/querydsl/entity/MemberTest.java:159-162 | `orderBy(..)` returns a permutation of the rows in which every pair is in order |
| `Ordering.SortedPairwise` | src/test/java/study/querydsl/entity/MemberTest.java:161 | order between neighbours extends to order between any two rows |
| `MemberRepository.UsernameEq` | src/main/java/study/querydsl/repository/MemberRepositoryImpl.java:205-207 | yields no clause exactly when the username lacks text; otherwise a row passes exactly when its username equals it |
| `MemberRepository.TeamNameEq` | src/main/java/study/querydsl/repository/MemberRepositoryImpl.java:201-203 | yields no clause exactly when the team name lacks text; otherwise a row passes exactly when it has a team of that name |
| `MemberRepository.AgeGoe` | src/main/java/study/querydsl/repository/MemberRepositoryImpl.java:197-199 | yields no clause exactly when the bound is null; otherwise a row passes exactly when `age >= bound` |
| `MemberRepository.AgeLoe` | src/main/java/study/querydsl/repository/MemberRepositoryImpl.java:193-195 | yields no clause exactly when the bound is null; otherwise a row passes exactly when `age <= bound` |
| `MemberRepository.BlankYieldsNoClause` | src/main/java/study/querydsl/repository/MemberRepositoryImpl.java:201-207 | a null, empty or whitespace-only username or team name yields no clause |
| `MemberRepository.TextYieldsClause` | src/main/java/study/querydsl/repository/MemberRepositoryImpl.java:201-207 | a string with a non-whitespace character yields the equality clause on that exact string, with no trimming |
| `MemberRepository.SearchWhereMeaning` | src/main/java/study/querydsl/repository/MemberRepositoryImpl.java:43-48 | a member passes the shared where exactly when it meets every present field of the condition |
| `MemberRepository.SearchWhereAbsent` | src/main/java/study/querydsl/repository/MemberRepositoryImpl.java:43-48 | the where is empty exactly when both strings lack text and both bounds are null |
| `MemberRepository.ToDto` | src/main/java/study/querydsl/repository/MemberRepositoryImpl.java:49-55 | the DTO copies id, username and age. Its team id and team name are null exactly when the member has no team, and otherwise are that team's |
| `MemberRepository.LeftJoinProject` | src/main/java/study/querydsl/repository/MemberRepositoryImpl.java:41-55 | the left join with the DTO projection yields one DTO per member, in order |
| `MemberRepository.Search` | src/main/java/study/querydsl/repository/MemberRepositoryImpl.java:39-56 | a DTO is in the result exactly when it is the projection of a member that meets the condition; there are never more results than members |
| `MemberRepository.GetMemberTeamDtos` | src/main/java/study/querydsl/repository/MemberRepositoryImpl.java:170-191 | the content holds `min(size, total - offset)` DTOs, or none when the offset is past the end, never more than the page size; its i-th element is the search result at `offset + i` |
| `MemberRepository.GetTotal` | src/main/java/study/querydsl/repository/MemberRepositoryImpl.java:155-168 | the count query returns the length of the unbounded search under the same condition |
| `MemberRepository.PageImpl` | src/main/java/study/querydsl/repository/MemberRepositoryImpl.java:152 | the page keeps the content and the request; its total is replaced by `offset + content.size()` exactly when the page is non-empty and reaches past the given total, and otherwise is the given total |
| `MemberRepository.GetPage` | src/main/java/study/querydsl/repository/MemberRepositoryImpl.java:110 | the page keeps the content and the request. A short first page reports its own size as the total. A short non-empty later page reports `offset + content.size()`. Otherwise the count is used and handed to `PageImpl` |
| `MemberRepository.PagingKeepsTotal` | src/main/java/study/querydsl/repository/MemberRepositoryImpl.java:110 | for content that is a page of a full result, neither `PageImpl`'s last-page adjustment nor `getPage`'s skip-the-count shortcuts change the total from the full length |
| `MemberRepository.ProjectSlice` | src/main/java/study/querydsl/repository/MemberRepositoryImpl.java:79-99 | projecting a page of rows to DTOs gives the same page of the projected rows |
| `MemberRepository.SearchPageComplex` | src/main/java/study/querydsl/repository/MemberRepositoryImpl.java:148-153 | the content is the search result sliced by the page's offset and size; the total is the full result's length; the request is echoed |
| `MemberRepository.SearchPageSimple` | src/main/java/study/querydsl/repository/MemberRepositoryImpl.java:77-111 | the content is the requested slice of the search, taken from `fetchResults()` and projected; the total is the full search length through `getPage`; the request is echoed |
| `MemberRepositoryProperties.SearchWithoutCondition` | src/main/java/study/querydsl/repository/MemberRepositoryImpl.java:41-56 | with every field absent, the search returns one DTO per member, in table order, and drops nothing |
| `MemberRepositoryProperties.UsernameFilterIsExact` | src/main/java/study/querydsl/repository/MemberRepositoryImpl.java:44 | with a username that has text, every result carries exactly that username |
| `MemberRepositoryProperties.AgeRangeEnforced` | src/main/java/study/querydsl/repository/MemberRepositoryImpl.java:46-47 | with both bounds present, every result satisfies `ageGoe <= age <= ageLoe` |
| `MemberRepositoryProperties.SingleAgeBound` | src/main/java/study/querydsl/repository/MemberRepositoryImpl.java:193-199 | with one bound alone, a member passes exactly when it meets that bound |
| `MemberRepositoryProperties.LeftJoinKeepsTeamless` | src/main/java/study/querydsl/repository/MemberRepositoryImpl.java:41-55 | a teamless member that meets the condition still appears. Its id, username and age are copied and its team id and team name are null |
| `MemberRepositoryProperties.DtoCopiesMember` | src/main/java/study/querydsl/repository/MemberRepositoryImpl.java:49-55 | every DTO copies id, username and age from a matching member, and has a team id exactly when that member has a team |
| `MemberRepositoryProperties.PageBounds` | src/main/java/study/querydsl/repository/MemberRepositoryImpl.java:149-152 | content length is at most the page size and at most the total; a non-empty page ends within the total |
| `MemberRepositoryProperties.TotalIgnoresPaging` | src/main/java/study/querydsl/repository/MemberRepositoryImpl.java:155-168 | the total is the same whichever page is requested |
| `MemberRepositoryProperties.SimpleAgreesWithComplex` | src/main/java/study/querydsl/repository/MemberRepositoryImpl.java:77-191 | for the same table, condition and page, the simple and the complex paged searches return equal pages |
| `MemberRepositoryScenarios.AgeRangeScenario` | src/main/java/study/querydsl/repository/MemberRepositoryImpl.java:39-56 | over the test rows, ages 20 to 30 give the DTOs of member2 and member3, total 2 |
| `MemberRepositoryScenarios.TeamPageScenario` | src/main/java/study/querydsl/repository/MemberRepositoryImpl.java:148-191 | over the test rows, team "teamA" with page 0 of size 1 gives member1's DTO and a total of 2 |
| `MemberRepositoryScenarios.WholeTableScenario` | src/main/java/study/querydsl/repository/MemberRepositoryImpl.java:148-191 | over the test rows, no condition with page 0 of size 10 gives 4 rows and a total of 4 |
| `MemberFixture.Before` | src/test/java/study/querydsl/entity/MemberTest.java:48-64 | the fixture holds exactly four members |
| `MemberFixture.BeforeShape` | src/test/java/study/querydsl/entity/MemberTest.java:50-64 | in persist order the members are named and aged 10, 20, 30 and 40, the first two in teamA and the last two in teamB |
| `MemberFixture.SelectBefore` | src/test/java/study/querydsl/entity/MemberTest.java:61-64 | fetching from the fixture keeps, in insertion order, exactly the members the where accepts |
| `MemberTestQueries.UsernameEq` | src/test/java/study/querydsl/entity/MemberTest.java:683-685 | yields no clause exactly when the username is null (an empty string still yields one); otherwise username equality |
| `MemberTestQueries.AgeEq` | src/test/java/study/querydsl/entity/MemberTest.java:687-689 | yields no clause exactly when the age is null; otherwise age equality |
| `MemberTestQueries.AllEq` | src/test/java/study/querydsl/entity/MemberTest.java:691-693 | throws exactly when the username is null; otherwise username equality ANDed with the age clause if present |
| `MemberTestQueries.SearchMember2` | src/test/java/study/querydsl/entity/MemberTest.java:675-681 | throws exactly when the username is null; otherwise fetches the members with that username (and that age, if given) |
| `MemberTestQueries.AllEqThrowsWithoutUsername` | src/test/java/study/querydsl/entity/MemberTest.java:691-693 | `allEq(null, a)` and `searchMember2(null, a)` throw a NullPointerException for every `a` |
| `MemberTestQueries.AllEqNullSafe` | src/test/java/study/querydsl/entity/MemberTest.java:691-693 | null-checked `allEq`: no clause exactly when both are null; otherwise true exactly when every present field matches |
| `MemberTestQueries.SearchMember2NullSafe` | src/test/java/study/querydsl/entity/MemberTest.java:675-681 | `searchMember2` over the null-checked `allEq` fetches exactly the members that match every non-null argument |
| `MemberTestQueries.AllEqNullSafeAgrees` | src/test/java/study/querydsl/entity/MemberTest.java:648-693 | where `allEq` does not throw, it equals the null-checked version, and the null-checked version equals the where-parameter fold of `usernameEq` and `ageEq` |
| `MemberTestQueries.BooleanBuilder.constructor` | src/test/java/study/querydsl/entity/MemberTest.java:650 | a new builder holds no expression |
| `MemberTestQueries.BooleanBuilder.And` | src/test/java/study/querydsl/entity/MemberTest.java:652-658 | `and(right)` ignores a null argument, stores the argument in an empty builder, and otherwise ANDs it on the right. The new expression is true exactly when the old one and the argument both are |
| `MemberTestQueries.SearchMember1` | src/test/java/study/querydsl/entity/MemberTest.java:648-664 | fetches the members matching every non-null argument, and all members when both are null. The builder holds what the where-parameter fold would |
| `MemberTestQueries.DynamicQueryBooleanBuilder` | src/test/java/study/querydsl/entity/MemberTest.java:639-646 | `searchMember1("member1", 10)` on the fixture returns member1 alone |
| `MemberTestQueries.DynamicQueryWhereParam` | src/test/java/study/querydsl/entity/MemberTest.java:666-673 | `searchMember2("member1", null)` on the fixture returns member1 alone, as written and null-checked |
| `MemberTestQueries.SortOrderMeaning` | src/test/java/study/querydsl/entity/MemberTest.java:147-161 | under `age.desc(), username.asc().nullsLast()` the older row comes first. At equal age a named row precedes a null-named one, and named rows go by ascending username. Two rows tie exactly when age and username are equal |
| `MemberTestQueries.SortResultOrder` | src/test/java/study/querydsl/entity/MemberTest.java:147-162 | on any table, `sort()`'s query returns a permutation of the rows whose ages never increase. Among rows of equal age, null-named rows come after every named row, and named rows are in ascending username order |
| `MemberTestQueries.SortTail` | src/test/java/study/querydsl/entity/MemberTest.java:155-161 | among the three age-100 rows, member5 precedes member6 and the null-named member comes last |
| `MemberTestQueries.SortScenario` | src/test/java/study/querydsl/entity/MemberTest.java:153-171 | ordering the seven rows by age descending, then username ascending with nulls last, puts member5, member6 and the null-named member first |
| `MemberTestQueries.Paging1` | src/test/java/study/querydsl/entity/MemberTest.java:173-183 | offset 0 and limit 2 over the four ordered rows give 2 rows |
| `MemberTestQueries.Paging2` | src/test/java/study/querydsl/entity/MemberTest.java:185-198 | offset 1 and limit 2 give 2 rows with total 4, and echo limit 2 and offset 1 |
| `MemberTestQueries.JoinScenario` | src/test/java/study/querydsl/entity/MemberTest.java:248-262 | the inner join filtered on "teamA" returns exactly member1 then member2 |
| `MemberTestQueries.SubQueryMaxAge` | src/test/java/study/querydsl/entity/MemberTest.java:375-381 | the max-age subquery keeps exactly the members no other member is older than |
| `MemberTestQueries.SubQueryIn` | src/test/java/study/querydsl/entity/MemberTest.java:421-428 | a member is fetched exactly when it is in the table and some member older than 10 has its age |
| `MemberTestQueries.SubQueryInIsAgeAbove` | src/test/java/study/querydsl/entity/MemberTest.java:421-428 | the `in` subquery over ages above 10 fetches the same rows as the filter `age > 10` |
| `MemberTestQueries.SubQueryScenario` | src/test/java/study/querydsl/entity/MemberTest.java:370-386 | on the fixture, the max-age subquery gives the ages [40] |
| `MemberTestQueries.SubQueryInScenario` | src/test/java/study/querydsl/entity/MemberTest.java:416-433 | on the fixture, the `in` subquery gives the ages [20, 30, 40] |
| `MemberTestQueries.AggregationScenario` | src/test/java/study/querydsl/entity/MemberTest.java:200-220 | on the fixture: count 4, sum 100, max 40, min 10 |
| `MemberTestQueries.WithUsername` | src/test/java/study/querydsl/entity/MemberTest.java:703-708 | the rename keeps the number of rows |
| `MemberTestQueries.WithAgeTimes` | src/test/java/study/querydsl/entity/MemberTest.java:733-736 | the age update keeps the number of rows |
| `MemberTestQueries.Without` | src/test/java/study/querydsl/entity/MemberTest.java:754-757 | the delete never adds rows |
| `MemberTestQueries.WithUsernameEffect` | src/test/java/study/querydsl/entity/MemberTest.java:703-708 | the rename sets the username of exactly the matching rows. Every other row and every other column is unchanged |
| `MemberTestQueries.WithAgeTimesEffect` | src/test/java/study/querydsl/entity/MemberTest.java:733-736 | the age update multiplies every row's age and changes nothing else |
| `MemberTestQueries.WithoutEffect` | src/test/java/study/querydsl/entity/MemberTest.java:754-757 | the delete keeps exactly the non-matching rows, and the survivors plus the deleted count make up the table |
| `MemberTestQueries.MemberTable.UpdateUsername` | src/test/java/study/querydsl/entity/MemberTest.java:703-708 | renames the matching rows in place (the table becomes `WithUsername` of the old rows) and returns the number of matching rows |
| `MemberTestQueries.MemberTable.MultiplyAge` | src/test/java/study/querydsl/entity/MemberTest.java:733-736 | multiplies every stored age in place and returns the table size |
| `MemberTestQueries.MemberTable.Delete` | src/test/java/study/querydsl/entity/MemberTest.java:754-757 | removes the matching rows (the table becomes `Without` of the old rows) and returns how many it removed |
| `MemberTestQueries.BulkUpdateScenario` | src/test/java/study/querydsl/entity/MemberTest.java:695-729 | renaming members younger than 28 to "비회원" on the fixture reports 2 rows. Member1 and member2 are renamed; member3 and member4 are unchanged |

## Findings

| source | as written | input that shows it | evidently intended | confidence | as-written member | corrected member |
|---|---|---|---|---|---|---|
| src/test/java/study/querydsl/entity/MemberTest.java:691-693 | `allEq` calls `.and(..)` on `usernameEq(usernameCond)`, which is null when `usernameCond` is null | `searchMember2(null, 10)` throws a NullPointerException. `searchMember1(null, 10)` returns the members aged 10 | each absent argument is skipped, as `usernameEq` and `ageEq` return null for exactly that purpose | medium, not executed | `MemberTestQueries.AllEqThrowsWithoutUsername` | `MemberTestQueries.AllEqNullSafeAgrees` |

## Left out

- `searchPageSimple2`: it builds a query and then always returns `null`. It is abandoned code with no contract to model.
- Framework wiring is not modelled: the `JPAQueryFactory`, the `EntityManager`, the `QuerydslRepositorySupport` constructor and injection. Queries are functions over an in-memory table, not generated SQL.
- `searchPageSimple` ignores the total that `fetchResults()` returns. `Queries.FetchResults` computes it, and it decides the empty result, but only the rows reach the page. That count query uses the left join; the model counts the member rows, which is the same number for a to-one join.
- `PageableExecutionUtils.getPage` takes the count as a lazy supplier. The model passes the count as a value. Whether the count query actually runs is not modelled; only the resulting total is.
- Spring's `Pageable.unpaged()` and `PageRequest`'s validation of page number and size are outside this code. A `Pageable` here is any page number and size.
- The count query of `getTotal` and `searchPageSimple` uses `team.name` without an explicit join. The JPA provider resolves that path when it translates the query, most likely as an implicit inner join on `member.team`. The model reads the member's own team, which is that reading, and which gives the same rows as the outer join under that filter.
- The result order of `search` and the paged searches is SQL's unspecified order. The model uses table order.
- The database collation is not modelled. Strings compare by code point. Equality is exact and case-sensitive.
- `Ordering.OrderBy`: the database's tie order between rows that compare equal is not modelled. The model places ties by insertion.
- `Ordering.CompareBy`: for a plain `username.desc()` (`paging1`, `paging2`) the model puts null usernames last. That assumes a database that sorts nulls low, as H2 and MySQL do; PostgreSQL and Oracle sort them high and would put them first. Every fixture row those tests read has a username, so their assertions do not depend on it.
- Ids, ages and counts are unbounded integers. Java's `Long` and `int` widths never matter for these searches.
- `MemberTestQueries.MemberTable.MultiplyAge`: does not model overflow of the 32-bit age column, which the database would report as an error.
- The fixture's ids are what one shared id sequence would hand out in persist order. No property depends on them.
- Persistence-context behaviour is not modelled: `flush`/`clear`, fetch joins, `isLoaded` and `em.find` caching in `fetchJoinNo`, `fetchJoinUse` and `bulkDelete`.
- Averages (`avg` in `aggregation`, `group`, `subQueryGoe`) are floating point and are left out. The count, sum, max and min assertions of `aggregation` are modelled.
- Tests that only print, or that depend on the database dialect, are left out:
  - `theta_join`, `join_on_filtering`, `join_on_no_relation`, `selectSubQuery`
  - `basicCase`, `complexCase`, `constant`, `concat`
  - the projection tests (`simpleProjection`, `tupleProjection`, the `findDto*` tests, `findUserDto*`)
  - `sqlFunction`, `sqlFunction2`
- The single-row lookups `startJPQL`, `startQuqerydsl`, `search` and `searchAndParam` (`fetchOne`) and the count-only `resultFetch` are not part of the dynamic search, so they are left out.
- `QuerydslBasicTest.java` is an empty test shell with nothing to model.

=== FILE: entities.dfy ===
/**
 * The entities and value objects the query layer reads and returns:
 * `Team`, `Member`, the search condition, the flat `MemberTeamDto`
 * projection, and Spring Data's page request and page.
 */
module Entities {
  import opened Wrappers

  /** A team; its `members` collection is the inverse side and is not needed here. */
  datatype Team = Team(id: int, name: string)

  /** A member row: the username may be null, and so may the team. */
  datatype Member = Member(id: int, username: Option<string>, age: int, team: Option<Team>)

  /** The sparse search condition: every field may be absent. */
  datatype MemberSearchCondition = MemberSearchCondition(
    username: Option<string>,
    teamName: Option<string>,
    ageGoe: Option<int>,
    ageLoe: Option<int>)

  /** The condition with every field absent. */
  const EmptyCondition := MemberSearchCondition(None, None, None, None)

  /** One output row; the team columns are null when the member has no team. */
  datatype MemberTeamDto = MemberTeamDto(
    memberId: int,
    username: Option<string>,
    age: int,
    teamId: Option<int>,
    teamName: Option<string>)

  /** A page request: a zero-based page number and a page size. */
  datatype Pageable = Pageable(pageNumber: nat, pageSize: nat) {
    /** The row offset of the first row of the requested page. */
    function Offset(): nat {
      pageNumber * pageSize
    }
  }

  /** A page of results with the echoed request and the total across all pages. */
  datatype Page = Page(content: seq<MemberTeamDto>, pageable: Pageable, total: nat)
}

=== FILE: fixture.dfy ===
/**
 * The rows `MemberTest.before` persists: two teams and four members. The
 * identifiers are what a single shared id sequence hands out in persist
 * order; no property below depends on their values.
 */
module MemberFixture {
  import opened Wrappers
  import opened Entities
  import opened Predicates
  import opened Queries

  const TeamA := Team(1, "teamA")
  const TeamB := Team(2, "teamB")

  const Member1 := Member(3, Some("member1"), 10, Some(TeamA))
  const Member2 := Member(4, Some("member2"), 20, Some(TeamA))
  const Member3 := Member(5, Some("member3"), 30, Some(TeamB))
  const Member4 := Member(6, Some("member4"), 40, Some(TeamB))

  /** The member table after `before()`, in insertion order. */
  function Before(): (rows: seq<Member>)
    ensures |rows| == 4
  {
    [Member1, Member2, Member3, Member4]
  }

  /** The shape `MemberTest`'s assertions rely on: named members aged 10, 20, 30
      and 40, the first two in teamA and the last two in teamB. */
  lemma BeforeShape()
    ensures forall i :: 0 <= i < |Before()| ==> Before()[i].age == 10 * (i + 1) && Before()[i].username.Some?
    ensures forall i :: 0 <= i < |Before()| ==> Before()[i].team == Some(if i < 2 then TeamA else TeamB)
  {
  }

  /** Selection over the four fixture rows, one row at a time. */
  lemma SelectBefore(w: Option<Predicate>)
    ensures Select(Before(), w)
         == (if EvalWhere(w, Member1) then [Member1] else [])
          + (if EvalWhere(w, Member2) then [Member2] else [])
          + (if EvalWhere(w, Member3) then [Member3] else [])
          + (if EvalWhere(w, Member4) then [Member4] else [])
  {
    SelectFour(Member1, Member2, Member3, Member4, w);
  }

  /** Selection over any four rows, one row at a time. */
  lemma SelectFour(a: Member, b: Member, c: Member, d: Member, w: Option<Predicate>)
    ensures Select([a, b, c, d], w)
         == (if EvalWhere(w, a) then [a] else [])
          + (if EvalWhere(w, b) then [b] else [])
          + (if EvalWhere(w, c) then [c] else [])
          + (if EvalWhere(w, d) then [d] else [])
  {
    var s1 := [] + [a];
    var s2 := s1 + [b];
    var s3 := s2 + [c];
    SelectSnoc([], a, w);
    SelectSnoc(s1, b, w);
    SelectSnoc(s2, c, w);
    SelectSnoc(s3, d, w);
    assert s3 + [d] == [a, b, c, d];
  }

  /** Selecting from a table with one more row at the end. */
  lemma SelectSnoc(s: seq<Member>, x: Member, w: Option<Predicate>)
    ensures Select(s + [x], w) == Select(s, w) + (if EvalWhere(w, x) then [x] else [])
  {
    assert (s + [x])[..|s|] == s;
  }
}

=== FILE: member_repository.dfy ===
/**
 * `MemberRepositoryImpl`: the dynamic member search. Four builders turn a
 * sparse `MemberSearchCondition` into optional clauses, `where(..)` conjoins
 * the present ones, the member table is left-joined to its team and each
 * row is projected into a `MemberTeamDto`; the paged variants slice that
 * list by the page request and pair it with a count of the matching members.
 */
module MemberRepository {
  import opened Wrappers
  import opened Entities
  import opened Predicates
  import opened Queries

  /** `usernameEq`: `member.username = u` when `u` has text, otherwise no clause. */
  function UsernameEq(username: Option<string>): (r: Option<Predicate>)
    ensures r.None? <==> !HasText(username)
    ensures forall m :: EvalWhere(r, m) <==> (HasText(username) ==> m.username == username)
  {
    if HasText(username) then Some(Atom(UsernameIs(username.value))) else None
  }

  /** `teamNameEq`: `team.name = t` when `t` has text, otherwise no clause. */
  function TeamNameEq(teamName: Option<string>): (r: Option<Predicate>)
    ensures r.None? <==> !HasText(teamName)
    ensures forall m :: EvalWhere(r, m)
                        <==> (HasText(teamName) ==> m.team.Some? && Some(m.team.value.name) == teamName)
  {
    if HasText(teamName) then Some(Atom(TeamNameIs(teamName.value))) else None
  }

  /** `ageGoe`: `member.age >= g` when the bound is non-null. */
  function AgeGoe(ageGoe: Option<int>): (r: Option<Predicate>)
    ensures r.None? <==> ageGoe.None?
    ensures forall m :: EvalWhere(r, m) <==> (ageGoe.Some? ==> m.age >= ageGoe.value)
  {
    if ageGoe.Some? then Some(Atom(AgeAtLeast(ageGoe.value))) else None
  }

  /** `ageLoe`: `member.age <= l` when the bound is non-null. */
  function AgeLoe(ageLoe: Option<int>): (r: Option<Predicate>)
    ensures r.None? <==> ageLoe.None?
    ensures forall m :: EvalWhere(r, m) <==> (ageLoe.Some? ==> m.age <= ageLoe.value)
  {
    if ageLoe.Some? then Some(Atom(AgeAtMost(ageLoe.value))) else None
  }

  /** A null, empty or whitespace-only string yields no clause. */
  lemma BlankYieldsNoClause(s: string)
    requires forall i :: 0 <= i < |s| ==> IsWhitespace(s[i])
    ensures UsernameEq(Some(s)) == None && TeamNameEq(Some(s)) == None
    ensures UsernameEq(None) == None && TeamNameEq(None) == None
  {
    ContainsTextSpec(s);
  }

  /** A string with a non-whitespace character yields the equality clause. */
  lemma TextYieldsClause(s: string, i: nat)
    requires i < |s| && !IsWhitespace(s[i])
    ensures UsernameEq(Some(s)) == Some(Atom(UsernameIs(s)))
    ensures TeamNameEq(Some(s)) == Some(Atom(TeamNameIs(s)))
  {
    ContainsTextSpec(s);
  }

  /** The four optional clauses, in the order `where(..)` receives them. */
  function Clauses(c: MemberSearchCondition): seq<Option<Predicate>> {
    [UsernameEq(c.username), TeamNameEq(c.teamName), AgeGoe(c.ageGoe), AgeLoe(c.ageLoe)]
  }

  /** The where clause every query of this repository shares. */
  function SearchWhere(c: MemberSearchCondition): Option<Predicate> {
    WhereAll(Clauses(c))
  }

  /** A member passes the filter exactly when it meets every present field. */
  predicate Meets(c: MemberSearchCondition, m: Member) {
    && (HasText(c.username) ==> m.username == c.username)
    && (HasText(c.teamName) ==> m.team.Some? && Some(m.team.value.name) == c.teamName)
    && (c.ageGoe.Some? ==> m.age >= c.ageGoe.value)
    && (c.ageLoe.Some? ==> m.age <= c.ageLoe.value)
  }

  lemma SearchWhereMeaning(c: MemberSearchCondition, m: Member)
    ensures EvalWhere(SearchWhere(c), m) <==> Meets(c, m)
  {
    var cs := Clauses(c);
    WhereAllHolds(cs, m);
    assert EvalWhere(cs[0], m) && EvalWhere(cs[1], m) && EvalWhere(cs[2], m) && EvalWhere(cs[3], m)
      <==> forall i :: 0 <= i < |cs| && cs[i].Some? ==> Eval(cs[i].value, m);
  }

  /** No clause at all exactly when every field is absent or blank. */
  lemma SearchWhereAbsent(c: MemberSearchCondition)
    ensures SearchWhere(c).None?
            <==> !HasText(c.username) && !HasText(c.teamName) && c.ageGoe.None? && c.ageLoe.None?
  {
    var cs := Clauses(c);
    assert cs[0].None? && cs[1].None? && cs[2].None? && cs[3].None?
      <==> forall i :: 0 <= i < |cs| ==> cs[i].None?;
  }

  /** `new QMemberTeamDto(member.id, member.username, member.age, team.id, team.name)`
      over the left-joined row: the team columns are null without a team. */
  function ToDto(m: Member): (d: MemberTeamDto)
    ensures d.memberId == m.id && d.username == m.username && d.age == m.age
    ensures d.teamId.None? <==> m.team.None?
    ensures d.teamName.None? <==> m.team.None?
    ensures m.team.Some? ==> d.teamId == Some(m.team.value.id) && d.teamName == Some(m.team.value.name)
  {
    MemberTeamDto(
      m.id, m.username, m.age,
      if m.team.Some? then Some(m.team.value.id) else None,
      if m.team.Some? then Some(m.team.value.name) else None)
  }

  /** `leftJoin(member.team, team)` followed by the projection: one DTO per member. */
  function LeftJoinProject(rows: seq<Member>): (r: seq<MemberTeamDto>)
    ensures |r| == |rows|
    ensures forall i :: 0 <= i < |rows| ==> r[i] == ToDto(rows[i])
  {
    if rows == [] then [] else [ToDto(rows[0])] + LeftJoinProject(rows[1..])
  }

  /** `search`: the projected rows of the members that meet the condition. */
  function Search(members: seq<Member>, c: MemberSearchCondition): (r: seq<MemberTeamDto>)
    ensures |r| <= |members|
    ensures forall d :: d in r <==> exists m :: m in members && Meets(c, m) && d == ToDto(m)
  {
    var selected := Select(members, SearchWhere(c));
    var r := LeftJoinProject(selected);
    forall m ensures m in selected <==> m in members && Meets(c, m) {
      SearchWhereMeaning(c, m);
    }
    forall d ensures d in r <==> exists m :: m in selected && d == ToDto(m) {
      if d in r {
        var i :| 0 <= i < |r| && r[i] == d;
        assert selected[i] in selected;
      }
      if exists m :: m in selected && d == ToDto(m) {
        var m :| m in selected && d == ToDto(m);
        var i :| 0 <= i < |selected| && selected[i] == m;
        assert r[i] == d;
      }
    }
    r
  }

  /** `getMemberTeamDtos`: the same query bounded by the page's offset and size. */
  function GetMemberTeamDtos(members: seq<Member>, c: MemberSearchCondition, p: Pageable): (r: seq<MemberTeamDto>)
    ensures |r| <= p.pageSize
    ensures |r| == if p.Offset() >= |Search(members, c)| then 0 else Min(p.pageSize, |Search(members, c)| - p.Offset())
    ensures forall i :: 0 <= i < |r| ==> p.Offset() + i < |Search(members, c)| && r[i] == Search(members, c)[p.Offset() + i]
  {
    Slice(Search(members, c), p.Offset(), p.pageSize)
  }

  /** `getTotal`: the count query, which counts members under the same clauses. */
  function GetTotal(members: seq<Member>, c: MemberSearchCondition): (n: nat)
    ensures n == |Search(members, c)|
  {
    CountIsSelectLength(members, SearchWhere(c));
    Count(members, SearchWhere(c))
  }

  /** `new PageImpl(content, pageable, total)`: on a non-empty last page Spring
      replaces the total by `offset + content.size()`. */
  function PageImpl(content: seq<MemberTeamDto>, p: Pageable, total: nat): (r: Page)
    ensures r.content == content && r.pageable == p
    ensures r.total != total ==> |content| > 0 && p.Offset() + p.pageSize > total && r.total == p.Offset() + |content|
    ensures |content| > 0 && p.Offset() + p.pageSize > total ==> r.total == p.Offset() + |content|
  {
    var t := if |content| > 0 && p.Offset() + p.pageSize > total then p.Offset() + |content| else total;
    Page(content, p, t)
  }

  /** `PageableExecutionUtils.getPage(content, pageable, countSupplier)`: the
      count is taken from the content when the page is provably the last one. */
  function GetPage(content: seq<MemberTeamDto>, p: Pageable, count: nat): (r: Page)
    ensures r.content == content && r.pageable == p
    ensures r.total == count || r.total == p.Offset() + |content|
    ensures p.Offset() == 0 && |content| < p.pageSize ==> r.total == |content|
    ensures p.Offset() > 0 && 0 < |content| < p.pageSize ==> r.total == p.Offset() + |content|
    ensures !(|content| < p.pageSize && (p.Offset() == 0 || |content| > 0)) ==> r == PageImpl(content, p, count)
  {
    if p.Offset() == 0 then
      if p.pageSize > |content| then PageImpl(content, p, |content|)
      else PageImpl(content, p, count)
    else if |content| != 0 && p.pageSize > |content| then PageImpl(content, p, p.Offset() + |content|)
    else PageImpl(content, p, count)
  }

  /** When the content is a slice of the full result, neither Spring shortcut
      changes the total: both pages report the full result's length. */
  lemma PagingKeepsTotal(all: seq<MemberTeamDto>, p: Pageable)
    ensures PageImpl(Slice(all, p.Offset(), p.pageSize), p, |all|).total == |all|
    ensures GetPage(Slice(all, p.Offset(), p.pageSize), p, |all|).total == |all|
  {
  }

  /** Projecting a window of the rows is the same window of the projection, so
      paging before or after the DTO projection gives the same content. */
  lemma ProjectSlice(rows: seq<Member>, offset: nat, limit: nat)
    ensures LeftJoinProject(Slice(rows, offset, limit)) == Slice(LeftJoinProject(rows), offset, limit)
  {
    var a := LeftJoinProject(Slice(rows, offset, limit));
    var b := Slice(LeftJoinProject(rows), offset, limit);
    assert |a| == |b|;
    forall i | 0 <= i < |a| ensures a[i] == b[i] {
      assert a[i] == ToDto(Slice(rows, offset, limit)[i]) == ToDto(rows[offset + i]);
    }
  }

  /** `searchPageComplex`: the content query and the count query, assembled by `PageImpl`. */
  function SearchPageComplex(members: seq<Member>, c: MemberSearchCondition, p: Pageable): (r: Page)
    ensures r.content == Slice(Search(members, c), p.Offset(), p.pageSize)
    ensures r.total == |Search(members, c)|
    ensures r.pageable == p
  {
    var content := GetMemberTeamDtos(members, c, p);
    var total := GetTotal(members, c);
    PagingKeepsTotal(Search(members, c), p);
    PageImpl(content, p, total)
  }

  /** `searchPageSimple`: the bounded content query (its `fetchResults` count is
      unused) and a count query handed to `getPage`. */
  function SearchPageSimple(members: seq<Member>, c: MemberSearchCondition, p: Pageable): (r: Page)
    ensures r.content == Slice(Search(members, c), p.Offset(), p.pageSize)
    ensures r.total == |Search(members, c)|
    ensures r.pageable == p
  {
    var results := FetchResults(members, SearchWhere(c), p.Offset(), p.pageSize);
    var content := LeftJoinProject(results.results);
    ProjectSlice(Select(members, SearchWhere(c)), p.Offset(), p.pageSize);
    CountIsSelectLength(members, SearchWhere(c));
    PagingKeepsTotal(Search(members, c), p);
    GetPage(content, p, Count(members, SearchWhere(c)))
  }
}

module MemberRepositoryProperties {
  import opened Wrappers
  import opened Entities
  import opened Predicates
  import opened Queries
  import opened MemberRepository

  /** With every field absent nothing is filtered: one DTO per member, in order. */
  lemma {:induction false} SearchWithoutCondition(members: seq<Member>)
    ensures |Search(members, EmptyCondition)| == |members|
    ensures forall i :: 0 <= i < |members| ==> Search(members, EmptyCondition)[i] == ToDto(members[i])
  {
    SearchWhereAbsent(EmptyCondition);
    SelectWithoutWhere(members);
  }

  /** A username with text keeps exactly the rows with that username. */
  lemma UsernameFilterIsExact(members: seq<Member>, c: MemberSearchCondition)
    requires HasText(c.username)
    ensures forall d :: d in Search(members, c) ==> d.username == c.username
  {
  }

  /** Both age bounds present: every result lies in the closed range. */
  lemma AgeRangeEnforced(members: seq<Member>, c: MemberSearchCondition)
    requires c.ageGoe.Some? && c.ageLoe.Some?
    ensures forall d :: d in Search(members, c) ==> c.ageGoe.value <= d.age <= c.ageLoe.value
  {
  }

  /** One bound alone: a member passes exactly when it meets that bound. */
  lemma SingleAgeBound(g: int, l: int, m: Member)
    ensures EvalWhere(SearchWhere(MemberSearchCondition(None, None, Some(g), None)), m) <==> m.age >= g
    ensures EvalWhere(SearchWhere(MemberSearchCondition(None, None, None, Some(l))), m) <==> m.age <= l
  {
    SearchWhereMeaning(MemberSearchCondition(None, None, Some(g), None), m);
    SearchWhereMeaning(MemberSearchCondition(None, None, None, Some(l)), m);
  }

  /** The outer join keeps a teamless member that meets the condition, with its
      member columns copied and its team columns null. */
  lemma LeftJoinKeepsTeamless(members: seq<Member>, c: MemberSearchCondition, m: Member)
    requires m in members && m.team.None? && Meets(c, m)
    ensures exists d :: d in Search(members, c)
                        && d.memberId == m.id && d.username == m.username && d.age == m.age
                        && d.teamId.None? && d.teamName.None?
  {
    assert ToDto(m) in Search(members, c);
  }

  /** Each DTO copies the member columns from the member it was made from. */
  lemma DtoCopiesMember(members: seq<Member>, c: MemberSearchCondition, d: MemberTeamDto)
    requires d in Search(members, c)
    ensures exists m :: m in members && Meets(c, m) && d.memberId == m.id && d.username == m.username
                        && d.age == m.age && (d.teamId.Some? <==> m.team.Some?)
  {
  }

  /** The page invariants: the content fits the page size, and a non-empty page
      lies within the total. */
  lemma PageBounds(members: seq<Member>, c: MemberSearchCondition, p: Pageable)
    ensures |SearchPageComplex(members, c, p).content| <= p.pageSize
    ensures |SearchPageComplex(members, c, p).content| <= SearchPageComplex(members, c, p).total
    ensures SearchPageComplex(members, c, p).content != []
            ==> p.Offset() + |SearchPageComplex(members, c, p).content| <= SearchPageComplex(members, c, p).total
  {
  }

  /** The total does not depend on which page is asked for. */
  lemma TotalIgnoresPaging(members: seq<Member>, c: MemberSearchCondition, p: Pageable, q: Pageable)
    ensures SearchPageComplex(members, c, p).total == SearchPageComplex(members, c, q).total
  {
  }

  /** The two paged searches build the same content and count, so their pages agree. */
  lemma SimpleAgreesWithComplex(members: seq<Member>, c: MemberSearchCondition, p: Pageable)
    ensures SearchPageSimple(members, c, p) == SearchPageComplex(members, c, p)
  {
  }
}

/** The repository's searches over the `before()` rows. */
module MemberRepositoryScenarios {
  import opened Wrappers
  import opened Entities
  import opened Predicates
  import opened Queries
  import opened MemberFixture
  import opened MemberRepository

  lemma SelectBeforeUnder(c: MemberSearchCondition)
    ensures Select(Before(), SearchWhere(c))
         == (if Meets(c, Member1) then [Member1] else [])
          + (if Meets(c, Member2) then [Member2] else [])
          + (if Meets(c, Member3) then [Member3] else [])
          + (if Meets(c, Member4) then [Member4] else [])
  {
    SelectBefore(SearchWhere(c));
    SearchWhereMeaning(c, Member1);
    SearchWhereMeaning(c, Member2);
    SearchWhereMeaning(c, Member3);
    SearchWhereMeaning(c, Member4);
  }

  /** Ages 20 to 30 select member2 and member3, and the count is 2. */
  lemma AgeRangeScenario()
    ensures Search(Before(), MemberSearchCondition(None, None, Some(20), Some(30))) == [ToDto(Member2), ToDto(Member3)]
    ensures SearchPageComplex(Before(), MemberSearchCondition(None, None, Some(20), Some(30)), Pageable(0, 10)).total == 2
  {
    SelectBeforeUnder(MemberSearchCondition(None, None, Some(20), Some(30)));
    assert [Member2, Member3][1..] == [Member3];
  }

  /** Team "teamA", first page of size 1: one row out of a total of 2. */
  lemma TeamPageScenario()
    ensures var page := SearchPageComplex(Before(), MemberSearchCondition(None, Some("teamA"), None, None), Pageable(0, 1));
            page.content == [ToDto(Member1)] && page.total == 2
  {
    var c := MemberSearchCondition(None, Some("teamA"), None, None);
    TextYieldsClause("teamA", 0);
    assert HasText(c.teamName);
    assert "teamA" != "teamB";
    SelectBeforeUnder(c);
    assert Search(Before(), c) == [ToDto(Member1), ToDto(Member2)];
  }

  /** No condition, a page of 10 over the four rows: all four rows, total 4. */
  lemma WholeTableScenario()
    ensures var page := SearchPageComplex(Before(), EmptyCondition, Pageable(0, 10));
            |page.content| == 4 && page.total == 4
  {
    SelectBeforeUnder(EmptyCondition);
  }
}

=== FILE: member_test.dfy ===
/**
 * The dynamic-query helpers and the query scenarios of `MemberTest`: a
 * `BooleanBuilder` filled step by step (`searchMember1`), where-parameters
 * that are null when absent (`usernameEq`, `ageEq`, `allEq`,
 * `searchMember2`), the sort, paging, join, subquery and aggregate tests
 * over the `before()` rows, and the bulk update, add and delete statements
 * that rewrite stored rows in place.
 */
module MemberTestQueries {
  import opened Wrappers
  import opened Entities
  import opened Predicates
  import opened Queries
  import opened Ordering
  import opened MemberFixture

  /** What a Java call can throw here. */
  datatype Exception = NullPointerException

  /** `usernameEq`: `member.username = u` when `u` is non-null (no blank test here). */
  function UsernameEq(usernameCond: Option<string>): (r: Option<Predicate>)
    ensures r.None? <==> usernameCond.None?
    ensures forall m :: EvalWhere(r, m) <==> (usernameCond.Some? ==> m.username == usernameCond)
  {
    if usernameCond.Some? then Some(Atom(UsernameIs(usernameCond.value))) else None
  }

  /** `ageEq`: `member.age = a` when `a` is non-null. */
  function AgeEq(ageCond: Option<int>): (r: Option<Predicate>)
    ensures r.None? <==> ageCond.None?
    ensures forall m :: EvalWhere(r, m) <==> (ageCond.Some? ==> m.age == ageCond.value)
  {
    if ageCond.Some? then Some(Atom(AgeIs(ageCond.value))) else None
  }

  /** `allEq`, as written: `usernameEq(u).and(ageEq(a))`, which dereferences the
      username clause and so throws when `u` is null. */
  function AllEq(usernameCond: Option<string>, ageCond: Option<int>): (r: Result<Predicate, Exception>)
    ensures r.Failure? <==> usernameCond.None?
    ensures r.Success? ==>
              forall m :: Eval(r.value, m) <==> m.username == usernameCond && (ageCond.Some? ==> m.age == ageCond.value)
  {
    var username := UsernameEq(usernameCond);
    if username.None? then Failure(NullPointerException)
    else Success(AndMaybe(username.value, AgeEq(ageCond)))
  }

  /** `searchMember2`, as written: `where(allEq(u, a))`. */
  function SearchMember2(table: seq<Member>, usernameCond: Option<string>, ageCond: Option<int>): (r: Result<seq<Member>, Exception>)
    ensures r.Failure? <==> usernameCond.None?
    ensures r.Success? ==>
              forall m :: m in r.value <==> m in table && m.username == usernameCond && (ageCond.Some? ==> m.age == ageCond.value)
  {
    match AllEq(usernameCond, ageCond)
    case Failure(e) => Failure(e)
    case Success(p) => Success(Select(table, Some(p)))
  }

  /** A null username makes `searchMember2` throw where the builder version filters by age. */
  lemma AllEqThrowsWithoutUsername(table: seq<Member>, ageCond: Option<int>)
    ensures AllEq(None, ageCond) == Failure(NullPointerException)
    ensures SearchMember2(table, None, ageCond).Failure?
  {
  }

  /** `allEq` with each side null-checked: the conjunction of the present clauses. */
  function AllEqNullSafe(usernameCond: Option<string>, ageCond: Option<int>): (r: Option<Predicate>)
    ensures r.None? <==> usernameCond.None? && ageCond.None?
    ensures forall m :: EvalWhere(r, m)
                        <==> (usernameCond.Some? ==> m.username == usernameCond) && (ageCond.Some? ==> m.age == ageCond.value)
  {
    var username := UsernameEq(usernameCond);
    if username.None? then AgeEq(ageCond) else Some(AndMaybe(username.value, AgeEq(ageCond)))
  }

  /** `searchMember2` over the null-safe `allEq`. */
  function SearchMember2NullSafe(table: seq<Member>, usernameCond: Option<string>, ageCond: Option<int>): (r: seq<Member>)
    ensures forall m :: m in r
                        <==> m in table && (usernameCond.Some? ==> m.username == usernameCond) && (ageCond.Some? ==> m.age == ageCond.value)
  {
    Select(table, AllEqNullSafe(usernameCond, ageCond))
  }

  /** Where the original does not throw it builds the same expression as the
      null-safe one, and the null-safe one builds exactly what `searchMember1`'s
      builder holds. */
  lemma AllEqNullSafeAgrees(usernameCond: Option<string>, ageCond: Option<int>)
    ensures usernameCond.Some? ==> AllEq(usernameCond, ageCond) == Success(AllEqNullSafe(usernameCond, ageCond).value)
    ensures AllEqNullSafe(usernameCond, ageCond) == WhereAll([UsernameEq(usernameCond), AgeEq(ageCond)])
  {
    var ps := [UsernameEq(usernameCond), AgeEq(ageCond)];
    assert ps[..1] == [ps[0]] && ps[..1][..0] == [];
    assert WhereAll(ps[..1]) == ps[0];
  }

  /** QueryDSL's `BooleanBuilder`: an expression that starts out null and
      grows by `and(..)`. */
  class BooleanBuilder {
    var value: Option<Predicate>

    constructor()
      ensures value == None
    {
      value := None;
    }

    /** `and(right)`: a null argument changes nothing; into an empty builder
        the argument is stored as is; otherwise it is ANDed on the right. */
    method And(right: Option<Predicate>)
      modifies this
      ensures value == AndWhere(old(value), right)
      ensures forall m :: EvalWhere(value, m) <==> EvalWhere(old(value), m) && EvalWhere(right, m)
    {
      if right.Some? {
        if value.None? {
          value := right;
        } else {
          value := Some(Predicate.And(value.value, right.value));
        }
      }
    }
  }

  /** `searchMember1`: the builder gets the username clause when `u` is non-null
      and the age clause when `a` is non-null; the query keeps the rows that
      satisfy the builder, all of them when it is empty. */
  method SearchMember1(table: seq<Member>, usernameCond: Option<string>, ageCond: Option<int>) returns (result: seq<Member>)
    ensures forall m :: m in result
                        <==> m in table && (usernameCond.Some? ==> m.username == usernameCond) && (ageCond.Some? ==> m.age == ageCond.value)
    ensures result == Select(table, WhereAll([UsernameEq(usernameCond), AgeEq(ageCond)]))
    ensures usernameCond.None? && ageCond.None? ==> result == table
  {
    var builder := new BooleanBuilder();
    if usernameCond.Some? {
      builder.And(Some(Atom(UsernameIs(usernameCond.value))));
    }
    if ageCond.Some? {
      builder.And(Some(Atom(AgeIs(ageCond.value))));
    }
    AllEqNullSafeAgrees(usernameCond, ageCond);
    if builder.value.None? {
      SelectWithoutWhere(table);
    }
    result := Select(table, builder.value);
  }

  /** `dynamicQuery_BooleanBUilder`: ("member1", 10) finds member1 alone. */
  method DynamicQueryBooleanBuilder() returns (result: seq<Member>)
    ensures result == [Member1]
  {
    result := SearchMember1(Before(), Some("member1"), Some(10));
    var w := WhereAll([UsernameEq(Some("member1")), AgeEq(Some(10))]);
    SelectBefore(w);
  }

  /** `dynamicQuery_WhereParam`: ("member1", null) through `allEq` finds member1
      alone, as written and null-safe. */
  lemma DynamicQueryWhereParam()
    ensures SearchMember2(Before(), Some("member1"), None) == Success([Member1])
    ensures SearchMember2NullSafe(Before(), Some("member1"), None) == [Member1]
  {
    var w := Some(Atom(UsernameIs("member1")));
    assert AllEq(Some("member1"), None) == Success(w.value);
    SelectBefore(w);
    assert "member1" != "member2" && "member1" != "member3" && "member1" != "member4";
    assert EvalWhere(w, Member1) && !EvalWhere(w, Member2) && !EvalWhere(w, Member3) && !EvalWhere(w, Member4);
    assert Select(Before(), w) == [Member1];
    assert SearchMember2(Before(), Some("member1"), None) == Success(Select(Before(), w));
  }

  // ---- sort ----

  const NullNamed := Member(7, None, 100, None)
  const Member5 := Member(8, Some("member5"), 100, None)
  const Member6 := Member(9, Some("member6"), 100, None)

  /** The ordering of `sort()`: age descending, then username ascending with nulls last. */
  const SortOrder := [AgeDesc, UsernameAscNullsLast]

  /** What the ordering of `sort()` means for two rows: the older row first; at
      equal age the named row before the null-named one, and two named rows by
      username; rows tie only when age and username are equal. */
  lemma SortOrderMeaning(x: Member, y: Member)
    ensures x.age > y.age ==> Compare(SortOrder, x, y) < 0
    ensures x.age == y.age && x.username.Some? && y.username.None? ==> Compare(SortOrder, x, y) < 0
    ensures x.age == y.age && x.username.Some? && y.username.Some? ==>
              (Compare(SortOrder, x, y) < 0 <==> CompareStrings(x.username.value, y.username.value) < 0)
    ensures Compare(SortOrder, x, y) == 0 <==> x.age == y.age && x.username == y.username
  {
    assert SortOrder[1..] == [UsernameAscNullsLast];
  }

  /** `sort()` on any table: a permutation of the rows with ages non-increasing;
      among rows of equal age the named ones come first, by ascending username,
      and the null-named ones last. */
  lemma SortResultOrder(rows: seq<Member>)
    ensures multiset(OrderBy(SortOrder, rows)) == multiset(rows)
    ensures var r := OrderBy(SortOrder, rows);
            forall i, j :: 0 <= i < j < |r| ==> r[i].age >= r[j].age
    ensures var r := OrderBy(SortOrder, rows);
            forall i, j :: 0 <= i < j < |r| && r[i].age == r[j].age && r[i].username.None? ==> r[j].username.None?
    ensures var r := OrderBy(SortOrder, rows);
            forall i, j :: 0 <= i < j < |r| && r[i].age == r[j].age && r[i].username.Some? && r[j].username.Some? ==>
              CompareStrings(r[i].username.value, r[j].username.value) <= 0
  {
    var r := OrderBy(SortOrder, rows);
    OrderBySorted(SortOrder, rows);
    forall i, j | 0 <= i < j < |r|
      ensures r[i].age >= r[j].age
      ensures r[i].age == r[j].age && r[i].username.None? ==> r[j].username.None?
      ensures r[i].age == r[j].age && r[i].username.Some? && r[j].username.Some? ==>
                CompareStrings(r[i].username.value, r[j].username.value) <= 0
    {
      assert Compare(SortOrder, r[i], r[j]) <= 0;
      SortOrderMeaning(r[j], r[i]);
      SortOrderMeaning(r[i], r[j]);
      CompareFlip(SortOrder, r[i], r[j]);
      if r[i].username.Some? && r[j].username.Some? {
        CompareStringsFlip(r[i].username.value, r[j].username.value);
      }
    }
  }

  lemma OrderByCons(os: seq<OrderSpecifier>, x: Member, s: seq<Member>)
    ensures OrderBy(os, [x] + s) == Insert(os, x, OrderBy(os, s))
  {
    assert ([x] + s)[1..] == s;
  }

  lemma {:induction false} InsertAtEnd(os: seq<OrderSpecifier>, x: Member, s: seq<Member>)
    requires forall i :: 0 <= i < |s| ==> Compare(os, x, s[i]) > 0
    ensures Insert(os, x, s) == s + [x]
  {
    if s != [] {
      InsertAtEnd(os, x, s[1..]);
      assert s == [s[0]] + s[1..];
    }
  }

  /** Among the three age-100 rows, member5 precedes member6 and the null name comes last. */
  lemma SortTail()
    ensures OrderBy(SortOrder, [NullNamed, Member5, Member6]) == [Member5, Member6, NullNamed]
  {
    assert Compare(SortOrder, Member5, Member6) == -1 by {
      assert CompareStrings("member5", "member6") == -1;
    }
    OrderByCons(SortOrder, Member6, []);
    OrderByCons(SortOrder, Member5, [Member6]);
    OrderByCons(SortOrder, NullNamed, [Member5, Member6]);
    assert Insert(SortOrder, NullNamed, [Member6]) == [Member6, NullNamed];
  }

  /** `sort()`: after persisting (null, 100), ("member5", 100) and ("member6", 100),
      the first three rows are member5, member6 and the null-named member. */
  lemma SortScenario()
    ensures var r := OrderBy(SortOrder, Before() + [NullNamed, Member5, Member6]);
            |r| == 7 && r[0] == Member5 && r[1] == Member6 && r[2] == NullNamed
            && r[0].username == Some("member5") && r[1].username == Some("member6") && r[2].username == None
  {
    var os := SortOrder;
    var t3 := [NullNamed, Member5, Member6];
    var s3 := [Member5, Member6, NullNamed];
    SortTail();
    SortBehind(os, Member4, t3, s3);
    var t4, s4 := [Member4] + t3, s3 + [Member4];
    SortBehind(os, Member3, t4, s4);
    var t5, s5 := [Member3] + t4, s4 + [Member3];
    SortBehind(os, Member2, t5, s5);
    var t6, s6 := [Member2] + t5, s5 + [Member2];
    SortBehind(os, Member1, t6, s6);
    assert Before() + t3 == [Member1] + t6;
  }

  /** A row that follows every row of an ordered table goes last. */
  lemma SortBehind(os: seq<OrderSpecifier>, x: Member, t: seq<Member>, s: seq<Member>)
    requires OrderBy(os, t) == s
    requires forall i :: 0 <= i < |s| ==> Compare(os, x, s[i]) > 0
    ensures OrderBy(os, [x] + t) == s + [x]
  {
    OrderByCons(os, x, t);
    InsertAtEnd(os, x, s);
  }

  // ---- paging ----

  /** `paging1()`: ordered by username descending, offset 0 and limit 2 give two rows. */
  lemma Paging1()
    ensures |Slice(OrderBy([UsernameDesc], Before()), 0, 2)| == 2
  {
    OrderBySorted([UsernameDesc], Before());
  }

  /** `paging2()`: offset 1 and limit 2 give two rows, a total of 4, and echo
      the limit and the offset. */
  lemma Paging2()
    ensures var r := FetchResults(OrderBy([UsernameDesc], Before()), None, 1, 2);
            r.total == 4 && r.limit == 2 && r.offset == 1 && |r.results| == 2
  {
    OrderBySorted([UsernameDesc], Before());
    SelectWithoutWhere(OrderBy([UsernameDesc], Before()));
  }

  // ---- join ----

  /** `join()`: the inner join filtered on "teamA" returns member1 then member2. */
  lemma JoinScenario()
    ensures Select(InnerJoinTeam(Before()), Some(Atom(TeamNameIs("teamA")))) == [Member1, Member2]
  {
    InnerJoinUnderTeamName(Before(), "teamA");
    SelectBefore(Some(Atom(TeamNameIs("teamA"))));
  }

  // ---- subqueries ----

  /** `where(member.age.eq(select(max(age))))`: the members of the greatest age;
      over an empty table the subquery is null and nothing matches. */
  function SubQueryMaxAge(rows: seq<Member>): (r: seq<Member>)
    ensures forall m :: m in r <==> m in rows && forall i :: 0 <= i < |rows| ==> rows[i].age <= m.age
  {
    match MaxAge(rows)
    case None => []
    case Some(mx) => Select(rows, Some(Atom(AgeIs(mx))))
  }

  /** `where(member.age.in(select(age).where(age.gt(10))))`. */
  function SubQueryIn(rows: seq<Member>): (r: seq<Member>)
    ensures forall m :: m in r <==> m in rows && exists k :: 0 <= k < |rows| && rows[k].age > 10 && rows[k].age == m.age
  {
    var inner := Select(rows, Some(Atom(AgeAbove(10))));
    forall m: Member ensures m.age in Ages(inner) <==> exists k :: 0 <= k < |rows| && rows[k].age > 10 && rows[k].age == m.age {
      if m.age in Ages(inner) {
        var j :| 0 <= j < |inner| && Ages(inner)[j] == m.age;
        assert inner[j] in inner;
        var k :| 0 <= k < |rows| && rows[k] == inner[j];
      }
      if exists k :: 0 <= k < |rows| && rows[k].age > 10 && rows[k].age == m.age {
        var k :| 0 <= k < |rows| && rows[k].age > 10 && rows[k].age == m.age;
        assert rows[k] in inner;
        var j :| 0 <= j < |inner| && inner[j] == rows[k];
        assert Ages(inner)[j] == m.age;
      }
    }
    Select(rows, Some(Atom(AgeIn(Ages(inner)))))
  }

  /** The `in` subquery over the same table is the plain filter `age > 10`. */
  lemma SubQueryInIsAgeAbove(rows: seq<Member>)
    ensures SubQueryIn(rows) == Select(rows, Some(Atom(AgeAbove(10))))
  {
    var inner := Select(rows, Some(Atom(AgeAbove(10))));
    forall k | 0 <= k < |inner| ensures Ages(inner)[k] > 10 {
      assert inner[k] in inner;
    }
    forall i | 0 <= i < |rows|
      ensures EvalWhere(Some(Atom(AgeIn(Ages(inner)))), rows[i]) == EvalWhere(Some(Atom(AgeAbove(10))), rows[i])
    {
      if rows[i].age > 10 {
        assert rows[i] in rows;
        var k :| 0 <= k < |inner| && inner[k] == rows[i];
        assert Ages(inner)[k] == rows[i].age;
      }
    }
    SelectCongruent(rows, Some(Atom(AgeIn(Ages(inner)))), Some(Atom(AgeAbove(10))));
  }

  /** `subQuery()`: the oldest member's age is 40, and only member4 has it. */
  lemma SubQueryScenario()
    ensures Ages(SubQueryMaxAge(Before())) == [40]
  {
    var mx := MaxAge(Before());
    assert mx == Some(40);
    SelectBefore(Some(Atom(AgeIs(40))));
  }

  /** `subQueryIn()`: the ages above 10 are 20, 30 and 40. */
  lemma SubQueryInScenario()
    ensures Ages(SubQueryIn(Before())) == [20, 30, 40]
  {
    SubQueryInIsAgeAbove(Before());
    AgesAboveTen();
  }

  lemma AgesAboveTen()
    ensures Ages(Select(Before(), Some(Atom(AgeAbove(10))))) == [20, 30, 40]
  {
    SelectBefore(Some(Atom(AgeAbove(10))));
    assert Select(Before(), Some(Atom(AgeAbove(10)))) == [Member2, Member3, Member4];
  }

  // ---- aggregation ----

  /** `aggregation()`: count 4, sum 100, max 40, min 10. */
  lemma AggregationScenario()
    ensures Count(Before(), None) == 4
    ensures SumAge(Before()) == Some(100)
    ensures MaxAge(Before()) == Some(40)
    ensures MinAge(Before()) == Some(10)
  {
    CountBefore();
    FixtureAges();
    assert SumAge(Before()) == Some(Sum([10, 20, 30, 40]));
    assert MaxAge(Before()).value in [10, 20, 30, 40] && Before()[3].age <= MaxAge(Before()).value;
    assert MinAge(Before()).value in [10, 20, 30, 40] && MinAge(Before()).value <= Before()[0].age;
  }

  lemma CountBefore()
    ensures Count(Before(), None) == 4
  {
    CountIsSelectLength(Before(), None);
    SelectWithoutWhere(Before());
  }

  lemma FixtureAges()
    ensures Ages(Before()) == [10, 20, 30, 40]
  {
  }

  // ---- bulk statements ----

  /** The rows after `set(member.username, name).where(w)`. */
  function WithUsername(rows: seq<Member>, name: string, w: Option<Predicate>): (r: seq<Member>)
    ensures |r| == |rows|
  {
    if rows == [] then []
    else
      var last := rows[|rows| - 1];
      WithUsername(rows[..|rows| - 1], name, w) + [if EvalWhere(w, last) then last.(username := Some(name)) else last]
  }

  /** Exactly the matching rows take the new name; every other column and every
      other row is left as it was. */
  lemma {:induction false} WithUsernameEffect(rows: seq<Member>, name: string, w: Option<Predicate>)
    ensures |WithUsername(rows, name, w)| == |rows|
    ensures forall i :: 0 <= i < |rows| ==>
              var r := WithUsername(rows, name, w)[i];
              r.id == rows[i].id && r.age == rows[i].age && r.team == rows[i].team
              && r.username == if EvalWhere(w, rows[i]) then Some(name) else rows[i].username
  {
    if rows != [] {
      WithUsernameEffect(rows[..|rows| - 1], name, w);
    }
  }

  /** The rows after `set(member.age, member.age.multiply(factor))` with no where. */
  function WithAgeTimes(rows: seq<Member>, factor: int): (r: seq<Member>)
    ensures |r| == |rows|
  {
    if rows == [] then []
    else
      var last := rows[|rows| - 1];
      WithAgeTimes(rows[..|rows| - 1], factor) + [last.(age := last.age * factor)]
  }

  /** Every row's age is multiplied and nothing else changes. */
  lemma {:induction false} WithAgeTimesEffect(rows: seq<Member>, factor: int)
    ensures |WithAgeTimes(rows, factor)| == |rows|
    ensures forall i :: 0 <= i < |rows| ==> WithAgeTimes(rows, factor)[i] == rows[i].(age := rows[i].age * factor)
  {
    if rows != [] {
      WithAgeTimesEffect(rows[..|rows| - 1], factor);
    }
  }

  /** The rows a `delete(member).where(w)` leaves behind. */
  function Without(rows: seq<Member>, w: Option<Predicate>): (r: seq<Member>)
    ensures |r| <= |rows|
  {
    if rows == [] then []
    else
      var last := rows[|rows| - 1];
      Without(rows[..|rows| - 1], w) + if EvalWhere(w, last) then [] else [last]
  }

  /** A delete removes exactly the matching rows: the survivors are the
      non-matching rows, and the survivors and the count add up to the table. */
  lemma {:induction false} WithoutEffect(rows: seq<Member>, w: Option<Predicate>)
    ensures forall m :: m in Without(rows, w) <==> m in rows && !EvalWhere(w, m)
    ensures |Without(rows, w)| + Count(rows, w) == |rows|
  {
    if rows != [] {
      var init, last := rows[..|rows| - 1], rows[|rows| - 1];
      assert rows == init + [last];
      WithoutEffect(init, w);
    }
  }

  /** Overwriting the element just after a prefix. */
  lemma ReplaceAfter(p: seq<Member>, t: seq<Member>, y: Member)
    requires |t| > 0
    ensures (p + t)[|p| := y] == (p + [y]) + t[1..]
  {
  }

  /** Extending the processed prefix by one row extends the renamed rows and
      the count by that row's outcome. */
  lemma PrefixStep(rows: seq<Member>, i: nat, name: string, w: Option<Predicate>)
    requires i < |rows|
    ensures WithUsername(rows[..i + 1], name, w)
         == WithUsername(rows[..i], name, w) + [if EvalWhere(w, rows[i]) then rows[i].(username := Some(name)) else rows[i]]
    ensures Count(rows[..i + 1], w) == Count(rows[..i], w) + if EvalWhere(w, rows[i]) then 1 else 0
  {
    assert rows[..i + 1][..i] == rows[..i];
  }

  /** The stored member table that bulk statements rewrite. */
  class MemberTable {
    var rows: seq<Member>

    constructor(rows: seq<Member>)
      ensures this.rows == rows
    {
      this.rows := rows;
    }

    /** `update(member).set(member.username, name).where(w).execute()`: renames
        the matching rows in place and returns how many there were. */
    method UpdateUsername(name: string, w: Option<Predicate>) returns (count: nat)
      modifies this
      ensures rows == WithUsername(old(rows), name, w)
      ensures count == Count(old(rows), w)
    {
      ghost var before := rows;
      count := 0;
      var i := 0;
      while i < |rows|
        invariant |rows| == |before| && 0 <= i <= |rows|
        invariant rows == WithUsername(before[..i], name, w) + before[i..]
        invariant count == Count(before[..i], w)
      {
        var m := rows[i];
        assert m == before[i];
        var y := if EvalWhere(w, m) then m.(username := Some(name)) else m;
        PrefixStep(before, i, name, w);
        ReplaceAfter(WithUsername(before[..i], name, w), before[i..], y);
        rows := rows[i := y];
        if EvalWhere(w, m) {
          count := count + 1;
        }
        assert before[i..][1..] == before[i + 1..];
        i := i + 1;
      }
      assert before[..i] == before;
    }

    /** `update(member).set(member.age, member.age.multiply(factor)).execute()`:
        every row is updated, and the count is the table size. */
    method MultiplyAge(factor: int) returns (count: nat)
      modifies this
      ensures rows == WithAgeTimes(old(rows), factor)
      ensures count == |old(rows)|
    {
      ghost var before := rows;
      var i := 0;
      while i < |rows|
        invariant |rows| == |before| && 0 <= i <= |rows|
        invariant rows == WithAgeTimes(before[..i], factor) + before[i..]
      {
        assert before[..i + 1][..i] == before[..i];
        ghost var done := WithAgeTimes(before[..i], factor);
        var m := rows[i];
        assert m == before[i];
        ReplaceAfter(done, before[i..], m.(age := m.age * factor));
        rows := rows[i := m.(age := m.age * factor)];
        assert before[i..][1..] == before[i + 1..];
        i := i + 1;
      }
      assert before[..i] == before;
      count := i;
    }

    /** `delete(member).where(w).execute()`: removes the matching rows and
        returns how many there were. */
    method Delete(w: Option<Predicate>) returns (count: nat)
      modifies this
      ensures rows == Without(old(rows), w)
      ensures count == Count(old(rows), w)
    {
      var kept: seq<Member> := [];
      count := 0;
      var i := 0;
      while i < |rows|
        invariant 0 <= i <= |rows|
        invariant kept == Without(rows[..i], w)
        invariant count == Count(rows[..i], w)
      {
        assert rows[..i + 1][..i] == rows[..i];
        if EvalWhere(w, rows[i]) {
          count := count + 1;
        } else {
          kept := kept + [rows[i]];
        }
        i := i + 1;
      }
      assert rows[..i] == rows;
      rows := kept;
    }
  }

  /** The name `bulkUpdate()` gives to members younger than 28. */
  const NonMemberName := "비회원"

  /** `bulkUpdate()`: member1 and member2 (ages 10 and 20) are renamed, member3
      and member4 keep their names, and the statement reports two rows. */
  method BulkUpdateScenario() returns (count: nat, rows: seq<Member>)
    ensures count == 2
    ensures rows == [Member1.(username := Some(NonMemberName)), Member2.(username := Some(NonMemberName)), Member3, Member4]
  {
    var table := new MemberTable(Before());
    var w := Some(Atom(AgeBelow(28)));
    count := table.UpdateUsername(NonMemberName, w);
    rows := table.rows;
    WithUsernameEffect(Before(), NonMemberName, w);
    CountIsSelectLength(Before(), w);
    SelectBefore(w);
  }
}

=== FILE: ordering.dfy ===
/**
 * `orderBy(...)` over member rows: order specifiers, the lexicographic
 * comparison they induce, and a sort that returns a sorted permutation.
 * Strings compare by code point. Null usernames come last under both
 * username specifiers: `nullsLast()` says so; for a plain `desc()` this is
 * an assumption about the database, one that sorts nulls low.
 */
module Ordering {
  import opened Wrappers
  import opened Entities

  /** The order specifiers the tests use. */
  datatype OrderSpecifier =
    | AgeDesc                // member.age.desc()
    | UsernameAscNullsLast   // member.username.asc().nullsLast()
    | UsernameDesc           // member.username.desc(), nulls taken to sort low, so last

  /** Three-way lexicographic comparison of strings by code point. */
  function CompareStrings(a: string, b: string): (r: int)
    ensures -1 <= r <= 1
    ensures r == 0 <==> a == b
    ensures a < b ==> r == -1
  {
    if a == [] then (if b == [] then 0 else -1)
    else if b == [] then 1
    else if a[0] < b[0] then -1
    else if a[0] > b[0] then 1
    else CompareStrings(a[1..], b[1..])
  }

  lemma {:induction false} CompareStringsFlip(a: string, b: string)
    ensures CompareStrings(a, b) == -CompareStrings(b, a)
  {
    if a != [] && b != [] && a[0] == b[0] {
      CompareStringsFlip(a[1..], b[1..]);
    }
  }

  function CompareInts(a: int, b: int): int {
    if a < b then -1 else if a > b then 1 else 0
  }

  /** Nullable strings, nulls after every string; non-null strings ascending,
      or descending when `descending` is set. */
  function CompareNullsLast(a: Option<string>, b: Option<string>, descending: bool): int {
    match (a, b)
    case (None, None) => 0
    case (None, Some(_)) => 1
    case (Some(_), None) => -1
    case (Some(x), Some(y)) => if descending then CompareStrings(y, x) else CompareStrings(x, y)
  }

  /** How one specifier orders two rows: negative puts `x` first. */
  function CompareBy(o: OrderSpecifier, x: Member, y: Member): (r: int)
    ensures -1 <= r <= 1
    ensures o == AgeDesc ==> (r < 0 <==> x.age > y.age) && (r == 0 <==> x.age == y.age)
    ensures o != AgeDesc ==> (r == 0 <==> x.username == y.username)
    ensures o != AgeDesc && x.username.Some? && y.username.None? ==> r < 0
    ensures o == UsernameAscNullsLast && x.username.Some? && y.username.Some? ==>
              (r < 0 <==> CompareStrings(x.username.value, y.username.value) < 0)
    ensures o == UsernameDesc && x.username.Some? && y.username.Some? ==>
              (r < 0 <==> CompareStrings(y.username.value, x.username.value) < 0)
  {
    match o
    case AgeDesc => CompareInts(y.age, x.age)
    case UsernameAscNullsLast => CompareNullsLast(x.username, y.username, false)
    case UsernameDesc => CompareNullsLast(x.username, y.username, true)
  }

  /** The specifiers in turn: a later one only breaks ties of the earlier ones. */
  function Compare(os: seq<OrderSpecifier>, x: Member, y: Member): (r: int)
    ensures -1 <= r <= 1
    ensures r == 0 <==> forall k :: 0 <= k < |os| ==> CompareBy(os[k], x, y) == 0
  {
    if os == [] then 0
    else
      var c := CompareBy(os[0], x, y);
      if c != 0 then c else Compare(os[1..], x, y)
  }

  lemma {:induction false} CompareStringsTrans(a: string, b: string, c: string)
    requires CompareStrings(a, b) <= 0 && CompareStrings(b, c) <= 0
    ensures CompareStrings(a, c) <= 0
  {
    if a != [] && b != [] && c != [] && a[0] == b[0] && b[0] == c[0] {
      CompareStringsTrans(a[1..], b[1..], c[1..]);
    }
  }

  lemma CompareNullsLastFlip(a: Option<string>, b: Option<string>, descending: bool)
    ensures CompareNullsLast(a, b, descending) == -CompareNullsLast(b, a, descending)
  {
    if a.Some? && b.Some? {
      CompareStringsFlip(a.value, b.value);
    }
  }

  lemma CompareNullsLastTrans(a: Option<string>, b: Option<string>, c: Option<string>, descending: bool)
    requires CompareNullsLast(a, b, descending) <= 0 && CompareNullsLast(b, c, descending) <= 0
    ensures CompareNullsLast(a, c, descending) <= 0
  {
    if a.Some? && b.Some? && c.Some? {
      if descending {
        CompareStringsTrans(c.value, b.value, a.value);
      } else {
        CompareStringsTrans(a.value, b.value, c.value);
      }
    }
  }

  lemma CompareByFlip(o: OrderSpecifier, x: Member, y: Member)
    ensures CompareBy(o, x, y) == -CompareBy(o, y, x)
  {
    CompareNullsLastFlip(x.username, y.username, o == UsernameDesc);
  }

  lemma {:induction false} CompareFlip(os: seq<OrderSpecifier>, x: Member, y: Member)
    ensures Compare(os, x, y) == -Compare(os, y, x)
  {
    if os != [] {
      CompareByFlip(os[0], x, y);
      CompareFlip(os[1..], x, y);
    }
  }

  lemma CompareByTrans(o: OrderSpecifier, x: Member, y: Member, z: Member)
    requires CompareBy(o, x, y) <= 0 && CompareBy(o, y, z) <= 0
    ensures CompareBy(o, x, z) <= 0
  {
    if o != AgeDesc {
      CompareNullsLastTrans(x.username, y.username, z.username, o == UsernameDesc);
    }
  }

  /** The comparison is transitive, so the specifiers define a total preorder. */
  lemma {:induction false} CompareTrans(os: seq<OrderSpecifier>, x: Member, y: Member, z: Member)
    requires Compare(os, x, y) <= 0 && Compare(os, y, z) <= 0
    ensures Compare(os, x, z) <= 0
  {
    if os != [] {
      var o := os[0];
      CompareByFlip(o, x, y);
      CompareByFlip(o, y, z);
      CompareByFlip(o, x, z);
      var a, b := CompareBy(o, x, y), CompareBy(o, y, z);
      if a <= 0 && b <= 0 {
        CompareByTrans(o, x, y, z);
      }
      if a <= 0 && CompareBy(o, z, x) <= 0 {
        CompareByTrans(o, z, x, y);
      }
      if CompareBy(o, y, z) <= 0 && CompareBy(o, z, x) <= 0 {
        CompareByTrans(o, y, z, x);
      }
      if a == 0 && b == 0 {
        CompareTrans(os[1..], x, y, z);
      }
    }
  }

  /** Every adjacent pair is in order. */
  predicate Sorted(os: seq<OrderSpecifier>, s: seq<Member>) {
    forall i :: 0 <= i < |s| - 1 ==> Compare(os, s[i], s[i + 1]) <= 0
  }

  /** Puts `x` before the first row it does not follow. */
  function Insert(os: seq<OrderSpecifier>, x: Member, s: seq<Member>): (r: seq<Member>)
    ensures |r| == |s| + 1
  {
    if s == [] then [x]
    else if Compare(os, x, s[0]) <= 0 then [x] + s
    else [s[0]] + Insert(os, x, s[1..])
  }

  /** `orderBy(os...)`: insertion sort under the specifiers. */
  function OrderBy(os: seq<OrderSpecifier>, rows: seq<Member>): (r: seq<Member>)
    ensures |r| == |rows|
  {
    if rows == [] then [] else Insert(os, rows[0], OrderBy(os, rows[1..]))
  }

  /** Inserting adds exactly one copy of `x` and keeps every other row. */
  lemma {:induction false} InsertPermutes(os: seq<OrderSpecifier>, x: Member, s: seq<Member>)
    ensures multiset(Insert(os, x, s)) == multiset(s) + multiset{x}
  {
    if s != [] && Compare(os, x, s[0]) > 0 {
      assert Insert(os, x, s) == [s[0]] + Insert(os, x, s[1..]);
      InsertPermutes(os, x, s[1..]);
      assert s == [s[0]] + s[1..];
    }
  }

  /** The inserted sequence starts with `x` or with the old first row. */
  lemma InsertHead(os: seq<OrderSpecifier>, x: Member, s: seq<Member>)
    ensures Insert(os, x, s)[0] == x || (s != [] && Insert(os, x, s)[0] == s[0])
  {
  }

  /** Inserting into a sorted sequence keeps it sorted. */
  lemma {:induction false} InsertSorted(os: seq<OrderSpecifier>, x: Member, s: seq<Member>)
    requires Sorted(os, s)
    ensures Sorted(os, Insert(os, x, s))
  {
    if s != [] && Compare(os, x, s[0]) > 0 {
      CompareFlip(os, x, s[0]);
      var tail := s[1..];
      assert Sorted(os, tail) by {
        forall i | 0 <= i < |tail| - 1
          ensures Compare(os, tail[i], tail[i + 1]) <= 0
        {
          assert tail[i] == s[i + 1] && tail[i + 1] == s[i + 2];
        }
      }
      InsertSorted(os, x, tail);
      InsertHead(os, x, tail);
      var t := Insert(os, x, tail);
      assert Compare(os, s[0], t[0]) <= 0;
      var r := [s[0]] + t;
      assert Insert(os, x, s) == r;
      forall i | 0 <= i < |r| - 1
        ensures Compare(os, r[i], r[i + 1]) <= 0
      {
        if i > 0 {
          assert r[i] == t[i - 1] && r[i + 1] == t[i];
        }
      }
    }
  }

  /** The ordered rows are sorted and are a permutation of the input rows. */
  lemma {:induction false} OrderBySorted(os: seq<OrderSpecifier>, rows: seq<Member>)
    ensures |OrderBy(os, rows)| == |rows|
    ensures Sorted(os, OrderBy(os, rows))
    ensures forall i, j :: 0 <= i < j < |rows| ==> Compare(os, OrderBy(os, rows)[i], OrderBy(os, rows)[j]) <= 0
    ensures multiset(OrderBy(os, rows)) == multiset(rows)
  {
    if rows != [] {
      OrderBySorted(os, rows[1..]);
      InsertSorted(os, rows[0], OrderBy(os, rows[1..]));
      InsertPermutes(os, rows[0], OrderBy(os, rows[1..]));
      assert rows == [rows[0]] + rows[1..];
      assert |OrderBy(os, rows)| == |multiset(OrderBy(os, rows))|;
    }
    SortedPairwise(os, OrderBy(os, rows));
  }

  /** Adjacent order extends to every pair, by transitivity. */
  lemma {:induction false} SortedPairwise(os: seq<OrderSpecifier>, s: seq<Member>)
    requires Sorted(os, s)
    ensures forall i, j :: 0 <= i < j < |s| ==> Compare(os, s[i], s[j]) <= 0
  {
    forall i, j | 0 <= i < j < |s|
      ensures Compare(os, s[i], s[j]) <= 0
    {
      var k := i + 1;
      while k < j
        invariant i < k <= j
        invariant Compare(os, s[i], s[k]) <= 0
      {
        CompareTrans(os, s[i], s[k], s[k + 1]);
        k := k + 1;
      }
    }
  }
}

=== FILE: predicates.dfy ===
/**
 * Boolean filter expressions over a member row, as QueryDSL builds them:
 * single clauses (`member.username.eq(..)`, `member.age.goe(..)`, ...),
 * their conjunction, the null-dropping `where(..)` fold, and Spring's
 * `StringUtils.hasText` that decides whether a string field yields a clause.
 */
module Predicates {
  import opened Wrappers
  import opened Entities

  /** `Character.isWhitespace` as of JDK 9 and later (Unicode 8.0 onwards): the
      Unicode space, line and paragraph separators other than the three no-break
      spaces, plus U+0009..U+000D and U+001C..U+001F. Java 8 (Unicode 6.2) also
      counts U+180E MONGOLIAN VOWEL SEPARATOR, which this table does not. */
  predicate IsWhitespace(c: char) {
    var k := c as int;
    || (0x09 <= k <= 0x0D)
    || (0x1C <= k <= 0x20)
    || k == 0x1680
    || (0x2000 <= k <= 0x2006)
    || (0x2008 <= k <= 0x200A)
    || k == 0x2028 || k == 0x2029
    || k == 0x205F || k == 0x3000
  }

  /** The scan `StringUtils.containsText` does: is some character not whitespace? */
  predicate ContainsText(s: string) {
    if s == [] then false
    else !IsWhitespace(s[0]) || ContainsText(s[1..])
  }

  lemma {:induction false} ContainsTextSpec(s: string)
    ensures ContainsText(s) <==> exists i :: 0 <= i < |s| && !IsWhitespace(s[i])
  {
    if s != [] {
      ContainsTextSpec(s[1..]);
      if ContainsText(s[1..]) {
        var i :| 0 <= i < |s[1..]| && !IsWhitespace(s[1..][i]);
        assert !IsWhitespace(s[i + 1]);
      }
      if exists i :: 0 <= i < |s| && !IsWhitespace(s[i]) {
        var i :| 0 <= i < |s| && !IsWhitespace(s[i]);
        if i > 0 {
          assert !IsWhitespace(s[1..][i - 1]);
        }
      }
    }
  }

  /** `StringUtils.hasText`: not null, not empty, and not only whitespace. */
  predicate HasText(s: Option<string>)
    ensures HasText(s) <==> s.Some? && exists i :: 0 <= i < |s.value| && !IsWhitespace(s.value[i])
  {
    if s.None? then false
    else
      ContainsTextSpec(s.value);
      |s.value| > 0 && ContainsText(s.value)
  }

  /** One comparison of a member column with a constant. */
  datatype Clause =
    | UsernameIs(username: string)   // member.username.eq(u)
    | TeamNameIs(teamName: string)   // team.name.eq(t)
    | AgeAtLeast(lower: int)         // member.age.goe(g)
    | AgeAtMost(upper: int)          // member.age.loe(l)
    | AgeIs(age: int)                // member.age.eq(a)
    | AgeBelow(bound: int)           // member.age.lt(b)
    | AgeAbove(bound: int)           // member.age.gt(b)
    | AgeIn(ages: seq<int>)          // member.age.in(subquery)

  /** Whether a clause is true of a member. A comparison with a null column
      (no username, no team) is never true, as in SQL. */
  predicate Holds(c: Clause, m: Member) {
    match c
    case UsernameIs(u) => m.username == Some(u)
    case TeamNameIs(t) => m.team.Some? && m.team.value.name == t
    case AgeAtLeast(g) => m.age >= g
    case AgeAtMost(l) => m.age <= l
    case AgeIs(a) => m.age == a
    case AgeBelow(b) => m.age < b
    case AgeAbove(b) => m.age > b
    case AgeIn(ages) => m.age in ages
  }

  /** A boolean expression: a clause or a conjunction of two expressions. */
  datatype Predicate = Atom(clause: Clause) | And(left: Predicate, right: Predicate)

  predicate Eval(p: Predicate, m: Member) {
    match p
    case Atom(c) => Holds(c, m)
    case And(l, r) => Eval(l, m) && Eval(r, m)
  }

  /** A where clause that may be absent; an absent one lets every row through. */
  predicate EvalWhere(w: Option<Predicate>, m: Member) {
    w.None? || Eval(w.value, m)
  }

  /** `ExpressionUtils.and(left, right)` with QueryDSL's null handling: a null
      side is dropped, two present sides are joined by AND. */
  function AndWhere(left: Option<Predicate>, right: Option<Predicate>): (r: Option<Predicate>)
    ensures r.None? <==> left.None? && right.None?
    ensures forall m :: EvalWhere(r, m) <==> EvalWhere(left, m) && EvalWhere(right, m)
  {
    if right.None? then left
    else if left.None? then right
    else Some(And(left.value, right.value))
  }

  /** `BooleanExpression.and(right)`: a null right-hand side returns the left one. */
  function AndMaybe(left: Predicate, right: Option<Predicate>): (r: Predicate)
    ensures forall m :: Eval(r, m) <==> Eval(left, m) && EvalWhere(right, m)
  {
    if right.None? then left else And(left, right.value)
  }

  /** `where(p1, ..., pn)`: each argument is added to the query's where clause
      in turn, and a null argument is skipped. */
  function WhereAll(ps: seq<Option<Predicate>>): (r: Option<Predicate>)
    ensures r.None? <==> forall i :: 0 <= i < |ps| ==> ps[i].None?
  {
    if ps == [] then None
    else
      var init := ps[..|ps| - 1];
      assert forall i :: 0 <= i < |init| ==> init[i] == ps[i];
      AndWhere(WhereAll(init), ps[|ps| - 1])
  }

  /** The conjunction is true exactly when every present argument is true. */
  lemma {:induction false} WhereAllHolds(ps: seq<Option<Predicate>>, m: Member)
    ensures EvalWhere(WhereAll(ps), m)
            <==> forall i :: 0 <= i < |ps| && ps[i].Some? ==> Eval(ps[i].value, m)
  {
    if ps != [] {
      var init := ps[..|ps| - 1];
      WhereAllHolds(init, m);
      assert forall i :: 0 <= i < |init| ==> init[i] == ps[i];
    }
  }
}

=== FILE: queries.dfy ===
/**
 * What QueryDSL's fetch operations mean over an in-memory member table:
 * `selectFrom(member).where(w).fetch()` is `Select`, `fetchCount()` is
 * `Count`, `offset(o).limit(n)` is `Slice`, `fetchResults()` pairs a slice
 * with the unsliced count, `join(member.team, team)` drops teamless members,
 * and `count()/sum()/max()/min()` are the aggregates over the age column.
 * Rows come back in table order unless an ordering is applied first.
 */
module Queries {
  import opened Wrappers
  import opened Entities
  import opened Predicates

  /** The rows that satisfy the where clause, in table order. */
  function Select(rows: seq<Member>, w: Option<Predicate>): (r: seq<Member>)
    ensures |r| <= |rows|
    ensures forall m :: m in r <==> m in rows && EvalWhere(w, m)
  {
    if rows == [] then []
    else
      var init, last := rows[..|rows| - 1], rows[|rows| - 1];
      assert rows == init + [last];
      if EvalWhere(w, last) then Select(init, w) + [last] else Select(init, w)
  }

  /** `fetchCount()`: the number of rows that satisfy the where clause. */
  function Count(rows: seq<Member>, w: Option<Predicate>): (n: nat)
    ensures n <= |rows|
  {
    if rows == [] then 0
    else Count(rows[..|rows| - 1], w) + if EvalWhere(w, rows[|rows| - 1]) then 1 else 0
  }

  /** The count is zero exactly when no row matches. */
  lemma {:induction false} CountZero(rows: seq<Member>, w: Option<Predicate>)
    ensures Count(rows, w) == 0 <==> forall i :: 0 <= i < |rows| ==> !EvalWhere(w, rows[i])
  {
    if rows != [] {
      var init := rows[..|rows| - 1];
      assert forall i :: 0 <= i < |init| ==> init[i] == rows[i];
      CountZero(init, w);
    }
  }

  /** The count query and the content query agree on how many rows match. */
  lemma {:induction false} CountIsSelectLength(rows: seq<Member>, w: Option<Predicate>)
    ensures Count(rows, w) == |Select(rows, w)|
  {
    if rows != [] {
      CountIsSelectLength(rows[..|rows| - 1], w);
    }
  }

  /** Nothing that matches is dropped: every matching row keeps its multiplicity,
      and no other row appears. */
  lemma {:induction false} SelectKeepsMatches(rows: seq<Member>, w: Option<Predicate>, m: Member)
    ensures multiset(Select(rows, w))[m] == if EvalWhere(w, m) then multiset(rows)[m] else 0
  {
    if rows != [] {
      var init, last := rows[..|rows| - 1], rows[|rows| - 1];
      assert rows == init + [last];
      SelectKeepsMatches(init, w, m);
    }
  }

  /** When every row matches, selection returns the table unchanged. */
  lemma {:induction false} SelectEverything(rows: seq<Member>, w: Option<Predicate>)
    requires forall i :: 0 <= i < |rows| ==> EvalWhere(w, rows[i])
    ensures Select(rows, w) == rows
  {
    if rows != [] {
      var init := rows[..|rows| - 1];
      assert rows == init + [rows[|rows| - 1]];
      assert EvalWhere(w, rows[|rows| - 1]);
      assert forall i :: 0 <= i < |init| ==> init[i] == rows[i];
      SelectEverything(init, w);
    }
  }

  /** Two where clauses that agree on every row select the same rows. */
  lemma {:induction false} SelectCongruent(rows: seq<Member>, v: Option<Predicate>, w: Option<Predicate>)
    requires forall i :: 0 <= i < |rows| ==> EvalWhere(v, rows[i]) == EvalWhere(w, rows[i])
    ensures Select(rows, v) == Select(rows, w)
  {
    if rows != [] {
      var init := rows[..|rows| - 1];
      assert rows == init + [rows[|rows| - 1]];
      assert EvalWhere(v, rows[|rows| - 1]) == EvalWhere(w, rows[|rows| - 1]);
      assert forall i :: 0 <= i < |init| ==> init[i] == rows[i];
      SelectCongruent(init, v, w);
    }
  }

  /** An absent where clause filters nothing. */
  lemma SelectWithoutWhere(rows: seq<Member>)
    ensures Select(rows, None) == rows
  {
    SelectEverything(rows, None);
  }

  function Min(a: int, b: int): int {
    if a <= b then a else b
  }

  /** `offset(offset).limit(limit)`: at most `limit` rows starting at `offset`. */
  function Slice<T>(s: seq<T>, offset: nat, limit: nat): (r: seq<T>)
    ensures |r| <= limit
    ensures |r| == if offset >= |s| then 0 else Min(limit, |s| - offset)
    ensures forall i :: 0 <= i < |r| ==> offset + i < |s| && r[i] == s[offset + i]
  {
    var lo := Min(offset, |s|);
    var hi := Min(offset + limit, |s|);
    s[lo..hi]
  }

  /** The result of `fetchResults()`: the page rows, the unsliced count and the
      limit and offset of the query. */
  datatype QueryResults<T> = QueryResults(results: seq<T>, total: nat, limit: nat, offset: nat)

  /** `Long.MAX_VALUE`, the limit `QueryResults.emptyResults()` reports. */
  const LongMax: nat := 0x7FFF_FFFF_FFFF_FFFF

  /** `where(w).offset(offset).limit(limit).fetchResults()` over (ordered) rows.
      The count query runs first; when it finds nothing, the content query is
      skipped and the library's empty result (limit `Long.MAX_VALUE`, offset 0)
      comes back instead of the requested modifiers. */
  function FetchResults(rows: seq<Member>, w: Option<Predicate>, offset: nat, limit: nat): (r: QueryResults<Member>)
    ensures r.total == |Select(rows, w)|
    ensures r.results == Slice(Select(rows, w), offset, limit)
    ensures r.total > 0 ==> r.limit == limit && r.offset == offset
    ensures r.total == 0 ==> r.results == [] && r.limit == LongMax && r.offset == 0
  {
    CountIsSelectLength(rows, w);
    var total := Count(rows, w);
    if total > 0 then QueryResults(Slice(Select(rows, w), offset, limit), total, limit, offset)
    else QueryResults([], 0, LongMax, 0)
  }

  /** `join(member.team, team)`: the inner join keeps only members with a team. */
  function InnerJoinTeam(rows: seq<Member>): (r: seq<Member>)
    ensures forall m :: m in r <==> m in rows && m.team.Some?
  {
    if rows == [] then []
    else
      var init, last := rows[..|rows| - 1], rows[|rows| - 1];
      assert rows == init + [last];
      if last.team.Some? then InnerJoinTeam(init) + [last] else InnerJoinTeam(init)
  }

  /** The join drops no duplicate: each member with a team occurs as often as
      in the table, and no teamless member occurs at all. */
  lemma {:induction false} InnerJoinKeepsTeamed(rows: seq<Member>, m: Member)
    ensures multiset(InnerJoinTeam(rows))[m] == if m.team.Some? then multiset(rows)[m] else 0
  {
    if rows != [] {
      var init, last := rows[..|rows| - 1], rows[|rows| - 1];
      assert rows == init + [last];
      InnerJoinKeepsTeamed(init, m);
    }
  }

  /** A filter on the team's name already excludes teamless members, so the
      inner join and the outer join give the same rows under it. */
  lemma {:induction false} InnerJoinUnderTeamName(rows: seq<Member>, t: string)
    ensures Select(InnerJoinTeam(rows), Some(Atom(TeamNameIs(t)))) == Select(rows, Some(Atom(TeamNameIs(t))))
  {
    if rows != [] {
      InnerJoinUnderTeamName(rows[..|rows| - 1], t);
    }
  }

  /** `select(member.age)`: the age column. */
  function Ages(rows: seq<Member>): (r: seq<int>)
    ensures |r| == |rows|
    ensures forall i :: 0 <= i < |rows| ==> r[i] == rows[i].age
  {
    if rows == [] then [] else [rows[0].age] + Ages(rows[1..])
  }

  function Sum(xs: seq<int>): int {
    if xs == [] then 0 else xs[0] + Sum(xs[1..])
  }

  /** The sum splits over concatenation, so appending a row adds its age. */
  lemma {:induction false} SumAppend(xs: seq<int>, ys: seq<int>)
    ensures Sum(xs + ys) == Sum(xs) + Sum(ys)
  {
    if xs != [] {
      assert (xs + ys)[1..] == xs[1..] + ys;
      SumAppend(xs[1..], ys);
    } else {
      assert xs + ys == ys;
    }
  }

  /** `age.sum()`: SQL's SUM is null over no rows. */
  function SumAge(rows: seq<Member>): (r: Option<int>)
    ensures r.None? <==> rows == []
    ensures r.Some? ==> r.value == Sum(Ages(rows))
  {
    if rows == [] then None else Some(Sum(Ages(rows)))
  }

  /** Adding a row to a table adds its age to `age.sum()`, starting from the
      row's own age on an empty table. */
  lemma SumAgeSnoc(rows: seq<Member>, m: Member)
    ensures SumAge(rows + [m]) == Some(m.age + if rows == [] then 0 else SumAge(rows).value)
  {
    assert Ages(rows + [m]) == Ages(rows) + [m.age];
    SumAppend(Ages(rows), [m.age]);
    assert Sum([m.age]) == m.age + Sum([]);
  }

  /** `age.max()`: the largest age, or null over no rows. */
  function MaxAge(rows: seq<Member>): (r: Option<int>)
    ensures r.None? <==> rows == []
    ensures r.Some? ==> r.value in Ages(rows)
    ensures r.Some? ==> forall i :: 0 <= i < |rows| ==> rows[i].age <= r.value
  {
    if rows == [] then None
    else
      var rest := MaxAge(rows[1..]);
      assert forall i :: 1 <= i < |rows| ==> rows[i] == rows[1..][i - 1];
      if rest.None? || rows[0].age >= rest.value then Some(rows[0].age) else rest
  }

  /** `age.min()`: the smallest age, or null over no rows. */
  function MinAge(rows: seq<Member>): (r: Option<int>)
    ensures r.None? <==> rows == []
    ensures r.Some? ==> r.value in Ages(rows)
    ensures r.Some? ==> forall i :: 0 <= i < |rows| ==> r.value <= rows[i].age
  {
    if rows == [] then None
    else
      var rest := MinAge(rows[1..]);
      assert forall i :: 1 <= i < |rows| ==> rows[i] == rows[1..][i - 1];
      if rest.None? || rows[0].age <= rest.value then Some(rows[0].age) else rest
  }
}

=== FILE: wrappers.dfy ===
/** Nullable values and thrown exceptions, as values. */
module Wrappers {

  /** A Java reference that may be null: `None` stands for `null`. */
  datatype Option<+T> = None | Some(value: T)

  /** The outcome of a Java call that either returns a value or throws. */
  datatype Result<+R, +E> = Success(value: R) | Failure(error: E)
}
